=== FILE: README.md ===
# Portfolio CMS core in Dafny

This project models the data path of a portfolio web site built with Next.js. It proves
properties of that model.

- **Case-study fetcher** (`lib/notion-cases.ts`). It reads the environment and queries a
  Notion database. It extracts loosely typed page properties and derives slugs from titles.
  A gate decides which pages become `CaseProject` records. The result is wrapped in an
  envelope. `getCaseBySlug` looks up one record.
- **CMS adapter layer** (`lib/cms-adapter.ts`). It has three providers (Notion, Contentful,
  Sanity) behind one interface. The registry is built at module load, and
  `getActiveAdapters` gives the available view.
- **Caching layer** (`lib/cache.ts`). `getCachedData` picks the first available adapter. It
  derives a cache key and two tags, and serves or fills the data cache. `warmCache` issues
  one request per path and swallows failures.
- **Webhook routes** (`app/api/webhook/notion/route.ts`, `app/api/webhook/contentful/route.ts`).
  Each parses the body and checks its adapter's availability. It then performs the
  revalidations and lists them: the global tag, the collection tag, record pages and list pages.
- **Pages**:
  - The home page (`app/page.tsx`) loads cases with a two-record fallback. It filters by
    category, caps the grid at twelve cards and splits them into columns. It offers sorted,
    distinct filter buttons.
  - The commercial page (`app/commercial/page.tsx`) has its own load and error states. Its
    filter buttons come in first-seen order.
  - The personal projects page (`app/personal-projects/page.tsx`) has a built-in list, a
    stable priority sort, column split, status badge and image click.

## How the model is built

- **Environment and outside world.** The environment is a map (`Environment.Env`). A
  variable counts as set when it is present and non-empty, as in JavaScript. The Notion
  query is a function parameter (`NotionCases.Query`) from token and database id to either
  raw pages or a failure message. The global cache tag, defined in a configuration file
  that is not part of this model, is a parameter `globalTag`.
- **Data cache.** The framework's data cache is a map from cache key to stored value and
  tags (`Cache.Store`). `revalidateTag` drops every entry that carries the tag.
- **Webhook side effects.** They are recorded as a list of `Webhook.Action`s in the order
  the handler performs them. `Webhook.ApplyRevalidations` gives their effect on the data
  cache.
- **Page effects.** They are pure functions from how a fetch settled to the state the page
  ends in: `Resolved`, or `Rejected` for a throw.
- **JavaScript semantics.** These are written out:
  - truthiness of strings and optional values (`Wrappers.Truthy`);
  - `a || b || c` alias chains (`Environment.FirstSet`);
  - `index % n === k` column filters, where `n == 0` selects nothing (`Seqs.Column`);
  - `new Set` insertion order (`Seqs.Dedupe`);
  - the default `sort()` by code point (equal to code-unit order inside the Basic Multilingual Plane) (`Strings.LexLess`);
  - the stable comparator sort (`PersonalProjects.SortByPriority`).

## Model

| member | source | states |
|---|---|---|
| Environment.FirstSet | lib/notion-cases.ts:99-100 | `a \|\| b \|\| c` over environment variables: none when no alias is set; otherwise the value of the first alias that is set, every earlier alias unset |
| Wrappers.OrEmpty | lib/notion-cases.ts:22 | `x \|\| ""`: the value when truthy, the empty string otherwise |
| NotionCases.CleanDatabaseId | lib/notion-cases.ts:16-18 | the cleaned id has no hyphen, keeps every other character with its multiplicity, and is a subsequence of the input |
| NotionCases.CleanDatabaseIdIdempotent | lib/notion-cases.ts:16-18 | cleaning twice equals cleaning once; an id without hyphens is unchanged |
| NotionCases.ExtractText | lib/notion-cases.ts:20-23 | a non-array gives `""`; the text is non-empty exactly when some fragment has a truthy `plain_text` |
| NotionCases.TextNonEmpty | lib/notion-cases.ts:20-23 | the joined text is non-empty iff some fragment's text is truthy |
| NotionCases.ExtractTextConcat | lib/notion-cases.ts:20-23 | extraction distributes over concatenation of fragment lists: the join keeps order |
| NotionCases.ExtractFiles | lib/notion-cases.ts:25-34 | a non-array gives `[]`; every URL kept is non-empty; a URL is kept iff some hosted or external entry has it, and as many times as entries have it |
| NotionCases.ExtractFilesOrder | lib/notion-cases.ts:25-34 | the kept URLs are a subsequence of the entries' URLs, so order is preserved |
| NotionCases.FirstFileIsFirstUrl | lib/notion-cases.ts:164 | `extractFiles(...)[0] \|\| ""` is the URL of the first entry that has a non-empty one, and `""` iff there is none |
| NotionCases.ExtractLabels | lib/notion-cases.ts:36-39 | a non-array gives `[]`; every label is non-empty; a label is kept iff some option has it as its name, and as many times as options have it |
| NotionCases.ExtractLabelsOrder | lib/notion-cases.ts:36-39 | the labels are a subsequence of the option names |
| NotionCases.DropSeparators | lib/notion-cases.ts:45 | drops exactly the leading run of characters outside `[a-z0-9]`: the result is a suffix starting with such a character or empty |
| NotionCases.SquashSeparators | lib/notion-cases.ts:45 | `.replace(/[^a-z0-9]+/g, "-")`: the output holds only `[a-z0-9-]` and never two hyphens in a row, is empty iff the input is, and starts with `-` iff the input starts with a separator; where the hyphens go is stated by the two lemmas below |
| NotionCases.SquashConcat | lib/notion-cases.ts:45 | no separator run crosses a letter or digit: a string split right after one squashes as its two parts squashed separately |
| NotionCases.SeparatorRunIsOneHyphen | lib/notion-cases.ts:45 | each maximal run of separators between letters or digits (or at either end) becomes exactly one hyphen: `x + run + y` squashes to `x` squashed, `-`, `y` squashed |
| NotionCases.TrimLeading | lib/notion-cases.ts:46 | removes exactly the leading hyphens: a suffix of the input that does not start with `-` |
| NotionCases.TrimTrailing | lib/notion-cases.ts:46 | removes exactly the trailing hyphens: a prefix of the input that does not end with `-` |
| NotionCases.GenerateSlug | lib/notion-cases.ts:42-47 | every generated slug is well formed: `[a-z0-9-]` only, no hyphen at either end, no double hyphen |
| NotionCases.SquashKeepsAlnums | lib/notion-cases.ts:45 | collapsing separator runs keeps the letters and digits, in order |
| NotionCases.GenerateSlugKeepsAlnums | lib/notion-cases.ts:42-47 | the slug's letters and digits are exactly those of the lower-cased title, in order |
| NotionCases.TrimLeadingKeepsAlnums | lib/notion-cases.ts:46 | trimming leading hyphens keeps every letter and digit |
| NotionCases.TrimTrailingKeepsAlnums | lib/notion-cases.ts:46 | trimming trailing hyphens keeps every letter and digit |
| NotionCases.GenerateSlugEmpty | lib/notion-cases.ts:42-47 | the slug is empty exactly when the title has no ASCII letter or digit |
| NotionCases.GenerateSlugFixpoint | lib/notion-cases.ts:42-47 | a well-formed slug is its own slug |
| NotionCases.GenerateSlugIdempotent | lib/notion-cases.ts:42-47 | generating a slug from a slug changes nothing |
| NotionCases.ExampleTitleSlug | lib/notion-cases.ts:42-47 | the title `MAITREYA, LOGO DESIGN!` gets the slug `maitreya-logo-design` |
| NotionCases.ProcessPage | lib/notion-cases.ts:150-213 | one loop iteration: an included page yields its record (title, intro image and publish all present, slug derived from the title); a skipped one yields its warning |
| NotionCases.ProcessPageGate | lib/notion-cases.ts:152-189 | a page is included iff it has properties, a title fragment with text, an intro-image entry with a URL, and the publish box ticked |
| NotionCases.ProcessPageIncluded | lib/notion-cases.ts:191-206 | a publishable page is included with the record its properties project to |
| NotionCases.ProjectOf | lib/notion-cases.ts:191-204 | the record keeps the page id and publish flag; its title is non-empty iff some title fragment has text; its slug is well formed and derived from its title; its labels and media URLs are non-empty |
| NotionCases.ProcessPageSkipped | lib/notion-cases.ts:152-213 | any other page is skipped with the warning of its first failing check |
| NotionCases.SkipReasonOrder | lib/notion-cases.ts:175-189 | checks run in the order title, intro image, publish; the first failing one names the warning |
| NotionCases.ProcessPages | lib/notion-cases.ts:150-214 | every page yields exactly one record or one warning |
| NotionCases.ProcessPagesIsGate | lib/notion-cases.ts:150-214 | the loop equals filter-then-project: the records of the publishable pages and the warnings of the others, each in page order; a skipped page never stops the loop |
| NotionCases.GetCaseProjects | lib/notion-cases.ts:78-237 | no token gives the token error; a token with an empty cleaned id gives the database-id error; a failed query gives the fetch error with its message; success iff a token is set, the cleaned id is non-empty and the query answers; a failure has empty data and one error; a success holds the records of the publishable queried pages and the warnings of the others, each in page order, with the count equal to the number of records |
| NotionCases.FindBySlug | lib/notion-cases.ts:63 | `find`: none iff no record has the slug; otherwise the first record in list order that has it |
| NotionCases.GetCaseBySlug | lib/notion-cases.ts:50-76 | nothing when the fetch failed; a record iff some fetched record has the slug, and then the first fetched record that has it |
| CmsAdapter.NewNotionAdapter | lib/cms-adapter.ts:13-18 | configured iff some token alias and some database-id alias are set |
| CmsAdapter.IsAvailable | lib/cms-adapter.ts:20-79 | the Notion adapter answers what its constructor found, whatever the environment holds now; Contentful is available iff `CONTENTFUL_SPACE_ID` and `CONTENTFUL_ACCESS_TOKEN` are both set, Sanity iff `SANITY_PROJECT_ID` and `SANITY_DATASET` are (lines 20-22, 52-54, 77-79) |
| CmsAdapter.TagFor | lib/cms-adapter.ts:46-48 | all three adapters give the same tag for a collection, and reading past `cms:` recovers the collection |
| CmsAdapter.TagForInjective | lib/cms-adapter.ts:46-48 | two collections share a tag iff they are equal |
| CmsAdapter.WebhookToCollectionAndSlug | lib/cms-adapter.ts:41-44 | no adapter extracts a slug; only the Notion adapter extracts a collection |
| CmsAdapter.List | lib/cms-adapter.ts:24-31 | only the Notion adapter with `cases` lists anything, and a non-empty list means the fetch succeeded |
| CmsAdapter.NotionListIsFetchedData | lib/cms-adapter.ts:24-31 | the Notion `list("cases")` equals the fetched data: a failed fetch already carries an empty list |
| CmsAdapter.Get | lib/cms-adapter.ts:33-39 | only the Notion adapter with `cases` finds anything; a record iff some listed record has the slug, and then the first listed record that has it |
| CmsAdapter.NotionGetIsCaseBySlug | lib/cms-adapter.ts:33-39 | the Notion `get("cases", slug)` is the fetcher's `getCaseBySlug` |
| CmsAdapter.GetActiveAdapters | lib/cms-adapter.ts:109-122 | an entry is active iff it is in the registry and its adapter is available; the active entries keep registry order |
| CmsAdapter.NewAdapters | lib/cms-adapter.ts:102-106 | one adapter of each kind; the Notion one is available in every later environment iff a token alias and a database-id alias were set at load |
| CmsAdapter.NotionAvailabilityFixedAtLoad | lib/cms-adapter.ts:102-106 | the registry's Notion adapter answers the same in every later environment: what its constructor computed at load |
| CmsAdapter.ContentfulAvailabilityFollowsEnv | lib/cms-adapter.ts:51-54 | the Contentful adapter reads the environment on every call: unavailable on an empty one, available once both variables are set |
| CmsAdapter.UnavailableAdapterButFetchSucceeds | lib/cms-adapter.ts:13-18 | with a token and no database id, the adapter is unavailable while the fetcher falls back to its built-in id and succeeds |
| CmsAdapter.AvailableAdapterButFetchRejects | lib/cms-adapter.ts:13-18 | with a database id made only of hyphens, the adapter is available while the fetcher rejects the cleaned, empty id |
| Cache.SelectAdapter | lib/cache.ts:11-19 | none iff no registry adapter is available; otherwise the first active adapter, which is available |
| Cache.SelectAdapterOrder | lib/cache.ts:14 | an available Notion adapter is always chosen; otherwise an available Contentful one |
| Cache.CacheKey | lib/cache.ts:21 | `collection:slug` for a truthy slug, `collection:list` otherwise |
| Cache.CacheTags | lib/cache.ts:22 | two tags: the global tag first, then one that names the collection |
| Cache.Call | lib/cache.ts:27-31 | never throws; a truthy slug gives the first listed record with that slug (`NotionCases.FirstWithSlug`), or `null` iff none has it; otherwise the adapter's list |
| Cache.Settle | lib/cache.ts:26-35 | a throwing adapter call resolves to `null`; a returning one to its value |
| Cache.GetCachedData | lib/cache.ts:6-45 | with no adapter: `null`, store untouched; otherwise the value is the one stored under the key; a hit leaves the store as it is; a miss adds the key with both tags and changes nothing else |
| Cache.MissCallsAdapter | lib/cache.ts:24-42 | on a miss the value is the adapter's `get` for a truthy slug and its `list` otherwise |
| Cache.RevalidateTag | lib/cache.ts:40 | an entry survives iff it does not carry the tag, and survivors are unchanged |
| Cache.RevalidationDropsStoredEntry | lib/cache.ts:22 | an entry stored by a miss is dropped by revalidating the global tag and by revalidating its collection's tag |
| Cache.ListSlugCollides | lib/cache.ts:21 | the slug `list` gets the list's key, so once the list is stored a request for the record `list` is served the whole list |
| Cache.CacheKeysDistinct | lib/cache.ts:21 | distinct non-empty slugs get distinct keys, and any slug other than `list` gets a key different from the list's |
| Cache.WarmUrl | lib/cache.ts:53 | `VERCEL_URL` when set, else `http://localhost:3000`, followed by the path |
| Cache.WarmCache | lib/cache.ts:48-63 | one log line per path, in order, and a failure only when that path's URL is unreachable: the call as a whole never fails |
| Cache.WarmCacheConcat | lib/cache.ts:48-63 | warming two batches logs the first batch, then the second |
| Webhook.Status | app/api/webhook/notion/route.ts:10-74 | the status is 200, 400 or 500, and 200 exactly for a processed webhook |
| Webhook.RevalidatedTags | app/api/webhook/notion/route.ts:31-38 | a tag is revalidated iff some action revalidates it |
| Webhook.ApplyRevalidations | app/api/webhook/notion/route.ts:31-37 | an entry survives the handler iff no action's tag is among its tags; survivors are unchanged |
| NotionWebhook.DetailPath | app/api/webhook/notion/route.ts:42 | `/work/<slug>` for `cases`, `/<collection>/<slug>` otherwise |
| NotionWebhook.ListPath | app/api/webhook/notion/route.ts:52 | `/work` for `cases`, `/<collection>` otherwise |
| NotionWebhook.Actions | app/api/webhook/notion/route.ts:28-55 | the global tag always comes first; there is one action without a collection, five with a collection and slug, three otherwise |
| NotionWebhook.CollectionActions | app/api/webhook/notion/route.ts:35-55 | with a collection, the second action revalidates the tag the cache attaches to it, and the last warms its list page; a record page is revalidated and then warmed |
| NotionWebhook.Post | app/api/webhook/notion/route.ts:10-74 | an unparseable body gives 500 with its message; an unavailable adapter gives 400; 200 iff the body parses and the adapter is available |
| NotionWebhook.PostActionsForNotion | app/api/webhook/notion/route.ts:21-55 | with the registry's configured adapter, every accepted webhook does exactly three things: the global tag, `cms:cases`, and a warm of `/work` |
| NotionWebhook.PostDropsCachedEntries | app/api/webhook/notion/route.ts:31-32 | an accepted webhook empties a data cache whose every entry carries the global tag |
| ContentfulWebhook.DetailPath | app/api/webhook/contentful/route.ts:34 | the path is `/`, the collection, `/`, then the slug, with no special case |
| ContentfulWebhook.Actions | app/api/webhook/contentful/route.ts:21-39 | the global tag always comes first; there is one action without a collection and three with collection and slug; there is never a list-page warm |
| ContentfulWebhook.CollectionActions | app/api/webhook/contentful/route.ts:28-39 | with a collection, the second action revalidates the cache's collection tag; a slug ends the list with its page, revalidated and warmed |
| ContentfulWebhook.Post | app/api/webhook/contentful/route.ts:10-58 | an unparseable body gives 500; an unavailable adapter gives 400; 200 iff the body parses and the adapter is available |
| ContentfulWebhook.PostActionsForContentful | app/api/webhook/contentful/route.ts:14-25 | with the registry's adapter available, an accepted webhook only revalidates the global tag |
| ContentfulWebhook.HandlersCompared | app/api/webhook/contentful/route.ts:28-39 | both handlers begin with the same two actions; their record pages agree outside `cases` and differ for `cases` |
| Filters.FilterByCategories | app/page.tsx:58-61 | no active filter shows every project; otherwise a project shows iff one of its categories is active, as many times as it is listed; order is kept |
| Filters.FilterWidens | app/page.tsx:58-61 | activating more filters never hides a project that was shown |
| Filters.ToggleFilter | app/page.tsx:196-198 | the toggled filter is active afterwards iff it was not before; every other filter is unchanged; no duplicates appear; a new filter is appended at the end, and removing one keeps the others in order |
| Filters.ToggleTwice | app/page.tsx:196-198 | toggling twice restores the active set, and restores the list exactly when the filter was off |
| Filters.ClearFilters | app/page.tsx:200-202 | no filter is active afterwards |
| Filters.ClearShowsEverything | app/page.tsx:200-202 | after clearing, every project shows again in its original order, and any filtered view is a subsequence of it |
| Seqs.Column | app/page.tsx:66-68 | `filter((_, i) => i % n === k)`: no longer than the list, and empty when `n` is 0 or `k >= n` |
| Seqs.ColumnsCoverAll | app/page.tsx:66-68 | item `i` is row `i / n` of column `i % n` |
| Seqs.ColumnsPartition | app/page.tsx:66-68 | the `n` column lengths add up to the list length |
| Seqs.ColumnSizes | app/page.tsx:66-68 | a column is never shorter than a column to its right, and at most one longer |
| Grid.Arrange | app/page.tsx:72-114 | the mobile list is the list itself; two tablet and three desktop columns, each a subsequence of the list |
| Grid.DesktopPlacement | app/page.tsx:97-114 | every card sits at row `i / 3` of desktop column `i % 3` |
| Grid.TabletPlacement | app/page.tsx:79-95 | every card sits at row `i / 2` of tablet column `i % 2` |
| Grid.DesktopSizes | app/page.tsx:66-68 | the three desktop columns hold all cards between them and are balanced left-heavy |
| Grid.TabletSizes | app/page.tsx:82-92 | the two tablet columns hold all cards between them and are balanced left-heavy |
| HomePage.DisplayedProjects | app/page.tsx:63 | at most twelve cards: a prefix of the filtered list, all of it when it is shorter, and a subsequence of the projects |
| HomePage.WorksSection | app/page.tsx:56-117 | the grids of the displayed projects: the mobile list is them in order, card `i` sits at row `i / 3` of desktop column `i % 3` and row `i / 2` of tablet column `i % 2`, and no desktop column holds more than four cards |
| HomePage.CardPathIsRevalidatedPath | app/page.tsx:32 | a card opens the same page the Notion webhook revalidates for that record |
| HomePage.LoadProjects | app/page.tsx:133-189 | database data iff the fetch resolved with success and a non-empty list; any other result shows the two fallback records; a throw empties the grid |
| HomePage.LoadFromFetcher | app/page.tsx:139-143 | fed by the fetcher, the page shows database data iff the query succeeded and some queried page passed the publish gate |
| HomePage.FilterCategories | app/page.tsx:192-194 | the buttons are strictly ascending by code point, and a tag is offered iff some project carries it |
| HomePage.FallbackCategories | app/page.tsx:146-177 | the fallback records offer exactly `IDENTITY` and `PACKAGING`, in that order |
| Seqs.Dedupe | app/page.tsx:192-194 | `Array.from(new Set(xs))`: no duplicates, the same members as the input |
| Seqs.DedupeFirstSeenOrder | app/commercial/page.tsx:204-212 | the distinct values come in the order of their first occurrence |
| Seqs.FlatMap | app/page.tsx:193 | a value occurs in the flattened list iff it occurs in some element's list |
| Seqs.FlatMapConcat | app/page.tsx:193 | flattening a concatenation is the concatenation of the flattened parts, so order and repeats are kept |
| Seqs.FlatMapSingleton | app/page.tsx:193 | flattening one element gives that element's list |
| Strings.Sort | app/page.tsx:194 | the default `sort()` on strings: ascending by code point, a permutation of the input |
| Strings.SortDistinct | app/page.tsx:192-194 | sorting distinct strings gives a strictly ascending list of the same strings |
| CommercialPage.LoadProjects | app/commercial/page.tsx:57-83 | no error iff the fetch resolved with a non-empty list, which is then kept; an empty list gives `No projects found in database`; an error leaves no projects; a throw gives `Failed to load projects: ` followed by its message, or by `Unknown error` when it has none |
| CommercialPage.ShowSection | app/commercial/page.tsx:98-130 | the notice shows iff there is an error or no project, with the error's text when there is one and a non-empty text always; otherwise every filtered project is laid out, with no cap on their number |
| CommercialPage.GridAfterLoad | app/commercial/page.tsx:67-104 | after loading, the grid appears iff the fetch returned projects, and with no filter it shows all of them |
| CommercialPage.AvailableCategories | app/commercial/page.tsx:200-220 | no duplicates; a category is offered iff some project carries it; a throw offers none |
| CommercialPage.CategoriesFirstSeen | app/commercial/page.tsx:204-212 | the categories come in order of first appearance across the projects, unsorted |
| PersonalProjects.InsertByPriority | app/personal-projects/page.tsx:202 | inserting into a priority-sorted list keeps it sorted and adds exactly the one project |
| PersonalProjects.SortByPriority | app/personal-projects/page.tsx:202 | `sort((a, b) => a.priority - b.priority)`: ascending priority and a permutation of the input |
| PersonalProjects.InsertStable | app/personal-projects/page.tsx:202 | inserting keeps, for every priority, the order the project would have at the front |
| PersonalProjects.SortStable | app/personal-projects/page.tsx:202 | the sort is stable: projects of equal priority keep their input order |
| PersonalProjects.SortSortedIsIdentity | app/personal-projects/page.tsx:202 | a list already in priority order is left unchanged |
| PersonalProjects.LoadProjects | app/personal-projects/page.tsx:21-77 | the loaded list is in priority order and a permutation of the built-in list |
| PersonalProjects.LoadedAsWritten | app/personal-projects/page.tsx:21-77 | the built-in list is already sorted, so the page shows it exactly as written |
| PersonalProjects.GetColumnProjects | app/personal-projects/page.tsx:217-219 | a column is a subsequence of the projects, and empty for a zero column count or an out-of-range index |
| PersonalProjects.ColumnsAreGrid | app/personal-projects/page.tsx:221-223 | the page's three and two columns are the shared desktop and tablet grids |
| PersonalProjects.GetStatusColor | app/personal-projects/page.tsx:83-94 | the classes are a light background and dark text of the status's hue: green, blue, yellow, or gray for anything else |
| PersonalProjects.GetStatusText | app/personal-projects/page.tsx:96-107 | the badge text never holds a lower-case ASCII letter |
| PersonalProjects.StatusTextIsUpperCase | app/personal-projects/page.tsx:96-107 | the badge text is the status upper-cased, except that the two hyphenated statuses read with a space in place of the hyphen |
| PersonalProjects.OnImageClick | app/personal-projects/page.tsx:113-117 | a link opens iff the project has a truthy link and is completed, and it is that link |
| PersonalProjects.OpensOnlyUnderGreenBadge | app/personal-projects/page.tsx:83-117 | a card that opens on click shows a green `COMPLETED` badge, and a green badge with a link opens |
| PersonalProjects.OnlyFirstMockOpens | app/personal-projects/page.tsx:21-77 | of the built-in projects only the first opens a link on click |

## Left out

- Rendering is not modelled: JSX, CSS classes other than the status badge, loading spinners,
  image-error state, navigation and scrolling. Only the data each view shows is modelled.
- The Notion client, its dynamic import, the 15-second timeout, `page_size: 100` and the
  server-side `publish` filter are not modelled. The query is an abstract function from
  token and database id to pages or a failure. The page gate re-checks `publish` itself.
- Logging and `metadata.debugInfo` (`lib/notion-cases.ts:102-103, 146, 217`) are left out:
  they never affect a result.
- Webhook actions are kept as tagged values (`Webhook.Action`), not as the strings the routes
  report. The Notion route reports `Revalidated collection: X (tag: T)`; the Contentful route
  reports `Revalidated collection: X` and a single `Revalidated and warmed: P` line for a
  record page. `ContentfulWebhook.HandlersCompared` compares the effects, not the reported
  lists.
- The webhook routes answer 500 in the model only for a body that fails to parse. In the
  source, a throw from `revalidateTag` or `revalidatePath` inside the same `try` also gives
  500; the modelled cache operations never throw.
- Warning and error messages are kept as tagged values with the data they mention, not as
  the exact message strings.
- `revalidatePath` and warming touch the page cache, which is not modelled. Only the data
  cache (`Cache.Store`) is. `warmCache` takes reachability as a parameter, and the requests
  run one after another, not concurrently.
- Time-based expiry of cached entries (`revalidate`, `DEFAULT_REVALIDATE`) is left out. An
  entry stays until a tag revalidation drops it.
- The webhook secret check (`app/api/webhook/notion/route.ts:15-19`) is left out. It does
  nothing in the source.
- A thrown adapter call inside the adapter layer itself is left out. The modelled adapters
  are total, and `Cache.Settle` models the catch that would turn a throw into `null`.
- Case mapping covers ASCII only. `toLowerCase`/`toUpperCase` of other characters, and
  characters outside the Basic Multilingual Plane, are not modelled. A non-ASCII letter in
  a title therefore acts as a separator in its slug.
- The home page's fallback records omit the `comingSoon` field. It only blurs the card image.
- `getCommercialProjects` is in `lib/notion-commercial.ts`, which is not part of this
  model. The commercial page takes how that call settled as its input.
- Priorities are integers. A non-integer or `NaN` priority in the comparator is not
  modelled.
- The personal projects page's `catch` is unreachable with the built-in list and is left
  out. So are the 500 ms delay and the `clients` list of the commercial page.
- CmsAdapter.UnavailableAdapterButFetchSucceeds: it requires that the query answers for
  the built-in database id, not for every id. The claim is about that one database.
- Grid.DesktopPlacement: it states where each card lands, not that the columns contain
  nothing else. `Grid.DesktopSizes` supplies the count that rules out extra cards.

=== FILE: cache.dfy ===
/**
  The caching layer of `lib/cache.ts`. The framework's data cache is modelled as a map from
  cache key to the stored value and its tags; a tag revalidation drops every entry carrying
  the tag. Expiry by time is not modelled: an entry stays until a tag drops it.
 */
module Cache {
  import opened Wrappers
  import opened Environment
  import Seqs
  import NotionCases
  import CmsAdapter

  /** What a cached function can return: a list, one record, or `null`. */
  datatype CachedValue = ListValue(items: seq<NotionCases.CaseProject>) | ItemValue(item: NotionCases.CaseProject) | NullValue

  datatype Stored = Stored(tags: seq<string>, value: CachedValue)

  type Store = map<string, Stored>

  /** The value `getCachedData` resolves to, and the store after the call. */
  datatype CacheResult = CacheResult(value: CachedValue, store: Store)

  /** `Object.values(getActiveAdapters()).find(a => a.isAvailable())`. */
  function SelectAdapter(registry: CmsAdapter.Adapters, env: Env): (r: Option<CmsAdapter.Adapter>)
    ensures r.None? <==> forall e :: e in CmsAdapter.Entries(registry) ==> !CmsAdapter.IsAvailable(e.adapter, env)
    ensures r.Some? ==> CmsAdapter.IsAvailable(r.value, env)
    ensures r.Some? ==> r.value == CmsAdapter.GetActiveAdapters(registry, env)[0].adapter
  {
    var active := CmsAdapter.GetActiveAdapters(registry, env);
    if active == [] then None else Some(active[0].adapter)
  }

  /** The first available adapter is the first available one in registry order. */
  lemma SelectAdapterOrder(registry: CmsAdapter.Adapters, env: Env)
    ensures CmsAdapter.IsAvailable(registry.notion, env) ==> SelectAdapter(registry, env) == Some(registry.notion)
    ensures !CmsAdapter.IsAvailable(registry.notion, env) && CmsAdapter.IsAvailable(registry.contentful, env)
            ==> SelectAdapter(registry, env) == Some(registry.contentful)
  {
    var p := (e: CmsAdapter.Entry) => CmsAdapter.AvailableEntry(env, e);
    Seqs.FilterHead(p, CmsAdapter.Entries(registry));
  }

  /** `slug ? `${collection}:${slug}` : `${collection}:list``. */
  function CacheKey(collection: string, slug: Option<string>): (r: string)
    ensures Truthy(slug) ==> r == collection + ":" + slug.value
    ensures !Truthy(slug) ==> r == collection + ":list"
  {
    if Truthy(slug) then collection + ":" + slug.value else collection + ":list"
  }

  /**
    `[GLOBAL_CMS_TAG, adapter.tagFor(collection)]`: an entry carries the global tag first and
    then a tag that names its collection.
   */
  function CacheTags(globalTag: string, a: CmsAdapter.Adapter, collection: string): (r: seq<string>)
    ensures |r| == 2 && r[0] == globalTag
    ensures CmsAdapter.CollectionOfTag(r[1]) == Some(collection)
  {
    [globalTag, CmsAdapter.TagFor(a, collection)]
  }

  /** The record a cached value holds, if it is one record. */
  function Found(v: CachedValue): Option<NotionCases.CaseProject> {
    if v.ItemValue? then Some(v.item) else None
  }

  /** The outcome of the adapter call inside the cached function. */
  datatype Reply = Returned(value: CachedValue) | Threw(message: string)

  /** The cached function's `catch`: a throwing adapter call resolves to `null`. */
  function Settle(reply: Reply): (v: CachedValue)
    ensures reply.Threw? ==> v == NullValue
    ensures reply.Returned? ==> v == reply.value
  {
    match reply
    case Returned(value) => value
    case Threw(_) => NullValue
  }

  /**
    The adapter call: `get` when the slug is truthy, `list` otherwise. The modelled adapters
    never throw; a slug call answers the record with that slug, or `null` when none is listed.
   */
  function Call(a: CmsAdapter.Adapter, w: CmsAdapter.World, collection: string, slug: Option<string>): (r: Reply)
    ensures r.Returned?
    ensures Truthy(slug) ==> NotionCases.FirstWithSlug(CmsAdapter.List(a, w, collection), slug.value, Found(r.value))
    ensures Truthy(slug) ==> r.value.NullValue? || r.value.ItemValue?
    ensures Truthy(slug) && r.value.ItemValue? ==>
      r.value.item.slug == slug.value && r.value.item in CmsAdapter.List(a, w, collection)
    ensures Truthy(slug) ==> (r.value.NullValue? <==> forall x :: x in CmsAdapter.List(a, w, collection) ==> x.slug != slug.value)
    ensures !Truthy(slug) ==> r.value == ListValue(CmsAdapter.List(a, w, collection))
  {
    if Truthy(slug) then
      match CmsAdapter.Get(a, w, collection, slug.value)
      case Some(item) => Returned(ItemValue(item))
      case None => Returned(NullValue)
    else Returned(ListValue(CmsAdapter.List(a, w, collection)))
  }

  /**
    `getCachedData(collection, slug)`. With no available adapter it resolves to `null` and
    leaves the store alone. Otherwise a fresh entry under the key is served as stored; on a
    miss the adapter is called and its settled value is stored under the key with both tags.
   */
  function GetCachedData(registry: CmsAdapter.Adapters, w: CmsAdapter.World, globalTag: string,
                         store: Store, collection: string, slug: Option<string>): (r: CacheResult)
    ensures SelectAdapter(registry, w.env).None? ==> r == CacheResult(NullValue, store)
    ensures SelectAdapter(registry, w.env).Some? ==>
      var key := CacheKey(collection, slug);
      && key in r.store
      && r.value == r.store[key].value
      && (key in store ==> r.store == store)
      && (key !in store ==>
            && r.store[key].tags == CacheTags(globalTag, SelectAdapter(registry, w.env).value, collection)
            && forall k :: k != key ==> (k in r.store <==> k in store) && (k in store ==> r.store[k] == store[k]))
  {
    match SelectAdapter(registry, w.env)
    case None => CacheResult(NullValue, store)
    case Some(a) =>
      var key := CacheKey(collection, slug);
      if key in store then CacheResult(store[key].value, store)
      else
        var value := Settle(Call(a, w, collection, slug));
        CacheResult(value, store[key := Stored(CacheTags(globalTag, a, collection), value)])
  }

  /** On a miss, the value is what the adapter call settles to: `get` for a slug, `list` without. */
  lemma MissCallsAdapter(registry: CmsAdapter.Adapters, w: CmsAdapter.World, globalTag: string,
                         store: Store, collection: string, slug: Option<string>)
    requires SelectAdapter(registry, w.env).Some?
    requires CacheKey(collection, slug) !in store
    ensures var a := SelectAdapter(registry, w.env).value;
      && (Truthy(slug) ==> GetCachedData(registry, w, globalTag, store, collection, slug).value
                           == (match CmsAdapter.Get(a, w, collection, slug.value)
                               case Some(item) => ItemValue(item)
                               case None => NullValue))
      && (!Truthy(slug) ==> GetCachedData(registry, w, globalTag, store, collection, slug).value
                            == ListValue(CmsAdapter.List(a, w, collection)))
  {
  }

  /** `revalidateTag(tag)`: every entry carrying the tag is dropped; the rest stay. */
  function RevalidateTag(store: Store, tag: string): (r: Store)
    ensures forall k :: k in r <==> k in store && tag !in store[k].tags
    ensures forall k :: k in r ==> r[k] == store[k]
  {
    map k | k in store && tag !in store[k].tags :: store[k]
  }

  /**
    Every entry `getCachedData` stores carries the global tag and its collection's tag, so
    revalidating either drops it and the next call for the same key reaches the adapter again.
   */
  lemma RevalidationDropsStoredEntry(registry: CmsAdapter.Adapters, w: CmsAdapter.World, globalTag: string,
                                     store: Store, collection: string, slug: Option<string>)
    requires SelectAdapter(registry, w.env).Some?
    requires CacheKey(collection, slug) !in store
    ensures var after := GetCachedData(registry, w, globalTag, store, collection, slug).store;
      && CacheKey(collection, slug) !in RevalidateTag(after, globalTag)
      && CacheKey(collection, slug) !in RevalidateTag(after, CmsAdapter.CollectionTag(collection))
  {
    var a := SelectAdapter(registry, w.env).value;
    var after := GetCachedData(registry, w, globalTag, store, collection, slug).store;
    var key := CacheKey(collection, slug);
    assert after[key].tags == CacheTags(globalTag, a, collection);
    assert CmsAdapter.TagFor(a, collection) == CmsAdapter.CollectionTag(collection) by {
      match a
      case NotionAdapter(_) =>
      case ContentfulAdapter =>
      case SanityAdapter =>
    }
    assert after[key].tags[1] == CmsAdapter.CollectionTag(collection);
  }

  /**
    The cache key of the list and the key of an item whose slug is `list` are the same:
    once the list is stored, a request for the item `list` is served the whole list.
   */
  lemma ListSlugCollides(registry: CmsAdapter.Adapters, w: CmsAdapter.World, globalTag: string,
                         store: Store, collection: string)
    requires SelectAdapter(registry, w.env).Some?
    ensures CacheKey(collection, Some("list")) == CacheKey(collection, None)
    ensures var listed := GetCachedData(registry, w, globalTag, store, collection, None);
      GetCachedData(registry, w, globalTag, listed.store, collection, Some("list")).value == listed.value
  {
  }

  /** Distinct slugs other than `list` get distinct keys from each other and from the list. */
  lemma CacheKeysDistinct(collection: string, s1: string, s2: string)
    requires s1 != "" && s2 != "" && s1 != s2
    ensures CacheKey(collection, Some(s1)) != CacheKey(collection, Some(s2))
    ensures s1 != "list" ==> CacheKey(collection, Some(s1)) != CacheKey(collection, None)
  {
    var p := collection + ":";
    assert CacheKey(collection, Some(s1)) == p + s1 && CacheKey(collection, Some(s2)) == p + s2;
    assert (p + s1)[|p|..] == s1 && (p + s2)[|p|..] == s2;
    assert CacheKey(collection, None) == p + "list";
    assert (p + "list")[|p|..] == "list";
  }

  // ---------------------------------------------------------------------------------------
  // Warming

  /** One line of the warm log. */
  datatype WarmLog = Warmed(path: string) | WarmFailed(path: string)

  /** `${process.env.VERCEL_URL || 'http://localhost:3000'}${path}`. */
  function WarmUrl(env: Env, path: string): (r: string)
    ensures IsSet(env, "VERCEL_URL") ==> r == env["VERCEL_URL"] + path
    ensures !IsSet(env, "VERCEL_URL") ==> r == "http://localhost:3000" + path
  {
    FirstSet(env, ["VERCEL_URL"]).GetOr("http://localhost:3000") + path
  }

  /**
    `warmCache(paths)`: one request per path; a request that fails is logged and swallowed,
    so the call as a whole never fails. `reachable` says which URLs answer.
   */
  function WarmCache(env: Env, reachable: string -> bool, paths: seq<string>): (r: seq<WarmLog>)
    ensures |r| == |paths|
    ensures forall i :: 0 <= i < |paths| ==> r[i].path == paths[i]
    ensures forall i :: 0 <= i < |paths| ==> (r[i].WarmFailed? <==> !reachable(WarmUrl(env, paths[i])))
  {
    if paths == [] then []
    else
      var url := WarmUrl(env, paths[0]);
      [if reachable(url) then Warmed(paths[0]) else WarmFailed(paths[0])] + WarmCache(env, reachable, paths[1..])
  }

  /** Warming two batches logs the first batch, then the second. */
  lemma WarmCacheConcat(env: Env, reachable: string -> bool, a: seq<string>, b: seq<string>)
    ensures WarmCache(env, reachable, a + b) == WarmCache(env, reachable, a) + WarmCache(env, reachable, b)
  {
    var whole := WarmCache(env, reachable, a + b);
    var parts := WarmCache(env, reachable, a) + WarmCache(env, reachable, b);
    forall i | 0 <= i < |whole|
      ensures whole[i] == parts[i]
    {
      if i < |a| {
        assert (a + b)[i] == a[i];
      } else {
        assert (a + b)[i] == b[i - |a|];
      }
    }
  }

}

=== FILE: cms_adapter.dfy ===
/**
  The adapter contract of `lib/cms-adapter.ts`: three content providers behind one interface
  (`list`, `get`, `webhookToCollectionAndSlug`, `tagFor`, `isAvailable`), the module-level
  registry and the filtered view `getActiveAdapters`.

  The registry is built once, when the module loads, from the environment of that moment
  (`bootEnv`); calls made later see the environment of their own moment (`env`).
 */
module CmsAdapter {
  import opened Wrappers
  import opened Environment
  import Seqs
  import NotionCases

  /**
    The adapter classes. A Notion adapter carries the availability its constructor computed;
    the other two hold no state.
   */
  datatype Adapter = NotionAdapter(isConfigured: bool) | ContentfulAdapter | SanityAdapter

  /** `new NotionAdapter()`: configured when some token alias and some database-id alias are set. */
  function NewNotionAdapter(env: Env): (a: Adapter)
    ensures a.NotionAdapter?
    ensures a.isConfigured <==> && (exists i :: 0 <= i < |NotionCases.TokenAliases| && IsSet(env, NotionCases.TokenAliases[i]))
                                && (exists i :: 0 <= i < |NotionCases.DatabaseIdAliases| && IsSet(env, NotionCases.DatabaseIdAliases[i]))
  {
    var token := FirstSet(env, NotionCases.TokenAliases);
    var databaseId := FirstSet(env, NotionCases.DatabaseIdAliases);
    NotionAdapter(token.Some? && databaseId.Some?)
  }

  /** The environment variables an adapter's `isAvailable` reads on every call. */
  function OwnVariables(a: Adapter): set<string> {
    match a
    case NotionAdapter(_) => {}
    case ContentfulAdapter => {"CONTENTFUL_SPACE_ID", "CONTENTFUL_ACCESS_TOKEN"}
    case SanityAdapter => {"SANITY_PROJECT_ID", "SANITY_DATASET"}
  }

  /**
    `isAvailable()`. The Notion adapter answers what its constructor found; the other two
    answer whether every one of their own variables is set now.
   */
  function IsAvailable(a: Adapter, env: Env): (r: bool)
    ensures a.NotionAdapter? ==> r == a.isConfigured
    ensures !a.NotionAdapter? ==> (r <==> forall k :: k in OwnVariables(a) ==> IsSet(env, k))
  {
    match a
    case NotionAdapter(configured) => configured
    case ContentfulAdapter => IsSet(env, "CONTENTFUL_SPACE_ID") && IsSet(env, "CONTENTFUL_ACCESS_TOKEN")
    case SanityAdapter => IsSet(env, "SANITY_PROJECT_ID") && IsSet(env, "SANITY_DATASET")
  }

  /** The cache tag of a collection, shared by every adapter. */
  function CollectionTag(collection: string): string {
    "cms:" + collection
  }

  /**
    `tagFor(collection)`. All adapters agree on tag identity, and a tag determines its
    collection: reading past the `cms:` prefix gives the collection back.
   */
  function TagFor(a: Adapter, collection: string): (r: string)
    ensures r == CollectionTag(collection)
    ensures CollectionOfTag(r) == Some(collection)
  {
    var r := match a
      case NotionAdapter(_) => CollectionTag(collection)
      case ContentfulAdapter => CollectionTag(collection)
      case SanityAdapter => CollectionTag(collection);
    assert r[..4] == "cms:" && r[4..] == collection;
    r
  }

  /** Reads the collection back out of a tag. */
  function CollectionOfTag(tag: string): Option<string> {
    if |tag| >= 4 && tag[..4] == "cms:" then Some(tag[4..]) else None
  }

  /** Distinct collections never share a tag. */
  lemma TagForInjective(a: Adapter, c1: string, c2: string)
    ensures TagFor(a, c1) == TagFor(a, c2) <==> c1 == c2
  {
  }

  /** A webhook body, opaque to the adapters. */
  datatype Payload = Payload(json: string)

  /** `{ collection?, slug? }`. */
  datatype Target = Target(collection: Option<string>, slug: Option<string>)

  /** `webhookToCollectionAndSlug(payload)`: the payload is never inspected. */
  function WebhookToCollectionAndSlug(a: Adapter, payload: Payload): (r: Target)
    ensures r.slug.None?
    ensures r.collection.Some? <==> a.NotionAdapter?
  {
    match a
    case NotionAdapter(_) => Target(Some("cases"), None)
    case ContentfulAdapter => Target(None, None)
    case SanityAdapter => Target(None, None)
  }

  /** What a call can observe of the outside world: the environment and the case query. */
  datatype World = World(env: Env, query: NotionCases.Query)

  /**
    `list(collection)`. Contentful and Sanity answer `[]` whether or not they are available:
    their availability guard and their unimplemented body return the same value.
   */
  function List(a: Adapter, w: World, collection: string): (r: seq<NotionCases.CaseProject>)
    ensures !(a.NotionAdapter? && collection == "cases") ==> r == []
    ensures r != [] ==> NotionCases.GetCaseProjects(w.env, w.query).success
  {
    match a
    case NotionAdapter(_) =>
      if collection == "cases" then
        var result := NotionCases.GetCaseProjects(w.env, w.query);
        if result.success then result.data else []
      else []
    case ContentfulAdapter => []
    case SanityAdapter => []
  }

  /**
    The Notion `list("cases")` is the fetched data: a failed fetch already carries an empty
    list, so the `success` test never changes the outcome.
   */
  lemma NotionListIsFetchedData(configured: bool, w: World)
    ensures List(NotionAdapter(configured), w, "cases") == NotionCases.GetCaseProjects(w.env, w.query).data
  {
  }

  /**
    `get(collection, slug)`: the first listed record with the slug. Contentful and Sanity
    answer `null` whether or not they are available, as in `list`.
   */
  function Get(a: Adapter, w: World, collection: string, slug: string): (r: Option<NotionCases.CaseProject>)
    ensures !(a.NotionAdapter? && collection == "cases") ==> r.None?
    ensures NotionCases.FirstWithSlug(List(a, w, collection), slug, r)
  {
    match a
    case NotionAdapter(_) =>
      if collection == "cases" then
        assert List(a, w, collection) == NotionCases.GetCaseProjects(w.env, w.query).data;
        NotionCases.GetCaseBySlug(w.env, w.query, slug)
      else None
    case ContentfulAdapter => None
    case SanityAdapter => None
  }

  /**
    The Notion `get("cases", slug)` is the fetcher's `getCaseBySlug`: the adapter adds
    nothing of its own.
   */
  lemma NotionGetIsCaseBySlug(configured: bool, w: World, slug: string)
    ensures Get(NotionAdapter(configured), w, "cases", slug) == NotionCases.GetCaseBySlug(w.env, w.query, slug)
  {
  }

  /** The registry `adapters`, built when the module loads. */
  datatype Adapters = Adapters(notion: Adapter, contentful: Adapter, sanity: Adapter)

  /** One adapter of each kind; the Notion one is configured from the environment at load. */
  function NewAdapters(bootEnv: Env): (r: Adapters)
    ensures r.notion.NotionAdapter? && r.contentful.ContentfulAdapter? && r.sanity.SanityAdapter?
    ensures forall env :: IsAvailable(r.notion, env) <==>
      && (exists i :: 0 <= i < |NotionCases.TokenAliases| && IsSet(bootEnv, NotionCases.TokenAliases[i]))
      && (exists i :: 0 <= i < |NotionCases.DatabaseIdAliases| && IsSet(bootEnv, NotionCases.DatabaseIdAliases[i]))
  {
    Adapters(NewNotionAdapter(bootEnv), ContentfulAdapter, SanityAdapter)
  }

  /** A registry entry: its key and its adapter. */
  datatype Entry = Entry(name: string, adapter: Adapter)

  /** `Object.entries(adapters)`, in declaration order. */
  function Entries(registry: Adapters): seq<Entry> {
    [Entry("notion", registry.notion), Entry("contentful", registry.contentful), Entry("sanity", registry.sanity)]
  }

  predicate AvailableEntry(env: Env, e: Entry) {
    IsAvailable(e.adapter, env)
  }

  /** `getActiveAdapters()`: the registry entries whose adapter is available now, in registry order. */
  function GetActiveAdapters(registry: Adapters, env: Env): (r: seq<Entry>)
    ensures forall e :: e in r <==> e in Entries(registry) && IsAvailable(e.adapter, env)
    ensures Seqs.Subsequence(r, Entries(registry))
    ensures forall i :: 0 <= i < |r| ==> r[i].name in {"notion", "contentful", "sanity"}
  {
    var p := (e: Entry) => AvailableEntry(env, e);
    Seqs.FilterSubsequence(p, Entries(registry));
    Seqs.Filter(p, Entries(registry))
  }

  /**
    The Notion adapter's availability is fixed when the registry is built: whatever the
    environment later holds, it answers the same. Contentful and Sanity read the environment
    on every call.
   */
  lemma NotionAvailabilityFixedAtLoad(bootEnv: Env, env1: Env, env2: Env)
    ensures IsAvailable(NewAdapters(bootEnv).notion, env1) == IsAvailable(NewAdapters(bootEnv).notion, env2)
    ensures IsAvailable(NewAdapters(bootEnv).notion, env1) == NewNotionAdapter(bootEnv).isConfigured
  {
  }

  lemma ContentfulAvailabilityFollowsEnv(bootEnv: Env)
    ensures !IsAvailable(NewAdapters(bootEnv).contentful, map[])
    ensures IsAvailable(NewAdapters(bootEnv).contentful,
                        map["CONTENTFUL_SPACE_ID" := "space", "CONTENTFUL_ACCESS_TOKEN" := "token"])
  {
  }

  /**
    The adapter and the fetcher disagree on the database id. With a token but no id set, the
    adapter reports itself unavailable while the fetcher falls back to its built-in id and
    queries.
   */
  lemma UnavailableAdapterButFetchSucceeds(query: NotionCases.Query)
    requires query("t", NotionCases.DefaultDatabaseId).QueryResults?
    ensures !NewNotionAdapter(map["CASES_TOKEN" := "t"]).isConfigured
    ensures NotionCases.GetCaseProjects(map["CASES_TOKEN" := "t"], query).success
  {
    var env := map["CASES_TOKEN" := "t"];
    assert FirstSet(env, NotionCases.DatabaseIdAliases).None? by {
      assert !IsSet(env, NotionCases.DatabaseIdAliases[0]) && !IsSet(env, NotionCases.DatabaseIdAliases[1]);
    }
    assert FirstSet(env, NotionCases.TokenAliases) == Some("t") by {
      assert IsSet(env, NotionCases.TokenAliases[0]);
    }
    assert NotionCases.DatabaseId(env) == NotionCases.DefaultDatabaseId by {
      assert '-' !in NotionCases.DefaultDatabaseId;
      NotionCases.CleanDatabaseIdIdempotent(NotionCases.DefaultDatabaseId);
    }
  }

  /**
    With an id made only of hyphens, the adapter is available while the fetcher rejects the
    cleaned, empty id.
   */
  lemma AvailableAdapterButFetchRejects(query: NotionCases.Query)
    ensures NewNotionAdapter(map["CASES_TOKEN" := "t", "CASES_DATABASE_ID" := "-"]).isConfigured
    ensures NotionCases.GetCaseProjects(map["CASES_TOKEN" := "t", "CASES_DATABASE_ID" := "-"], query)
         == NotionCases.Failure(NotionCases.NoDatabaseId)
  {
    var env := map["CASES_TOKEN" := "t", "CASES_DATABASE_ID" := "-"];
    assert FirstSet(env, NotionCases.DatabaseIdAliases) == Some("-") by {
      assert IsSet(env, NotionCases.DatabaseIdAliases[0]);
    }
    assert FirstSet(env, NotionCases.TokenAliases) == Some("t") by {
      assert IsSet(env, NotionCases.TokenAliases[0]);
    }
    assert NotionCases.CleanDatabaseId("-") == "" by {
      Seqs.FilterHead(c => c != '-', "-");
    }
    assert NotionCases.DatabaseId(env) == "";
  }
}

=== FILE: commercial_page.dfy ===
/**
  The commercial projects page (`app/commercial/page.tsx`): loading its projects, the notice
  shown instead of the grid, the filtered grid, and the filter buttons.
 */
module CommercialPage {
  import opened Wrappers
  import Seqs
  import Filters
  import Grid

  /** A commercial project as the page reads it. */
  datatype CommercialProject = CommercialProject(id: string, title: string, categories: seq<string>, image: string, link: string)

  function Categories(p: CommercialProject): seq<string> {
    p.categories
  }

  /**
    How `getCommercialProjects()` settled: with a list, or by throwing (with the message of an
    `Error`, or `None` for anything else thrown).
   */
  datatype Fetched = Resolved(projects: seq<CommercialProject>) | Rejected(message: Option<string>)

  /** The section's state once loading has finished. */
  datatype LoadState = LoadState(projects: seq<CommercialProject>, error: Option<string>)

  const NoProjectsMessage: string := "No projects found in database"
  const NoProjectsAvailable: string := "No projects available"

  /**
    `fetchProjects`: an empty list is an error, a non-empty list is kept, and a throw becomes
    `Failed to load projects: <message>` (`Unknown error` when no message is available).
   */
  function LoadProjects(outcome: Fetched): (r: LoadState)
    ensures r.error.None? <==> outcome.Resolved? && outcome.projects != []
    ensures r.error.None? ==> r.projects == outcome.projects
    ensures r.error.Some? ==> r.projects == [] && r.error.value != ""
    ensures outcome.Rejected? ==> |r.error.value| >= 25 && r.error.value[..25] == "Failed to load projects: "
    ensures outcome == Resolved([]) ==> r.error == Some(NoProjectsMessage)
    ensures outcome.Rejected? && outcome.message.Some? ==> r.error.value[25..] == outcome.message.value
    ensures outcome.Rejected? && outcome.message.None? ==> r.error.value[25..] == "Unknown error"
  {
    match outcome
    case Resolved(projects) =>
      if |projects| == 0 then LoadState([], Some(NoProjectsMessage)) else LoadState(projects, None)
    case Rejected(message) =>
      LoadState([], Some("Failed to load projects: " + message.GetOr("Unknown error")))
  }

  /** What the section shows: a notice, or the cards in their three grids. */
  datatype Section = Notice(message: string) | Cards(layout: Grid.Layout<CommercialProject>)

  /**
    `error || projects.length === 0` shows the notice with the error (or a generic line);
    otherwise every project the filter lets through is laid out, with no cap on their number.
   */
  function ShowSection(state: LoadState, active: seq<string>): (s: Section)
    ensures s.Notice? <==> Truthy(state.error) || state.projects == []
    ensures s.Notice? ==> s.message != ""
    ensures s.Notice? && Truthy(state.error) ==> s.message == state.error.value
    ensures s.Cards? ==> s.layout == Grid.Arrange(Filters.FilterByCategories(state.projects, Categories, active))
  {
    if Truthy(state.error) || |state.projects| == 0 then
      Notice(if Truthy(state.error) then state.error.value else NoProjectsAvailable)
    else Cards(Grid.Arrange(Filters.FilterByCategories(state.projects, Categories, active)))
  }

  /**
    After loading, the grid appears exactly when the fetch returned projects, and then shows
    every one of them until a filter is chosen.
   */
  lemma GridAfterLoad(outcome: Fetched, active: seq<string>)
    ensures ShowSection(LoadProjects(outcome), active).Cards? <==> outcome.Resolved? && outcome.projects != []
    ensures ShowSection(LoadProjects(outcome), []).Cards? ==> ShowSection(LoadProjects(outcome), []).layout.mobile == outcome.projects
  {
  }

  /**
    `fetchCategories`: every category in use, once each, in order of first appearance (a
    `Set` keeps insertion order; nothing sorts it). A throw leaves no categories.
   */
  function AvailableCategories(outcome: Fetched): (r: seq<string>)
    ensures Seqs.NoDup(r)
    ensures outcome.Rejected? ==> r == []
    ensures outcome.Resolved? ==>
      forall c :: c in r <==> exists i :: 0 <= i < |outcome.projects| && c in outcome.projects[i].categories
  {
    match outcome
    case Resolved(projects) => Seqs.Dedupe(Seqs.FlatMap(Categories, projects))
    case Rejected(_) => []
  }

  /** The buttons come in the order their categories first appear across the projects. */
  lemma CategoriesFirstSeen(projects: seq<CommercialProject>)
    ensures var all := Seqs.FlatMap(Categories, projects);
      var r := AvailableCategories(Resolved(projects));
      forall i, j :: 0 <= i < j < |r| ==> Seqs.FirstIndex(all, r[i]) < Seqs.FirstIndex(all, r[j])
  {
    Seqs.DedupeFirstSeenOrder(Seqs.FlatMap(Categories, projects));
  }
}

=== FILE: environment.dfy ===
/** The process environment, passed in as a value instead of read from `process.env`. */
module Environment {
  import opened Wrappers

  type Env = map<string, string>

  /** A variable is set when it is present with a non-empty value (an empty string is falsy). */
  predicate IsSet(env: Env, name: string) {
    name in env && env[name] != ""
  }

  /** `process.env[a] || process.env[b] || ...`: the value of the first alias that is set. */
  function FirstSet(env: Env, names: seq<string>): (r: Option<string>)
    ensures r.None? <==> forall i :: 0 <= i < |names| ==> !IsSet(env, names[i])
    ensures r.Some? ==> exists i :: 0 <= i < |names| && IsSet(env, names[i]) && env[names[i]] == r.value
                                    && forall j :: 0 <= j < i ==> !IsSet(env, names[j])
  {
    if names == [] then None
    else if IsSet(env, names[0]) then Some(env[names[0]])
    else
      var r := FirstSet(env, names[1..]);
      assert forall i :: 1 <= i < |names| ==> names[i] == names[1..][i - 1];
      r
  }
}

=== FILE: filters.dfy ===
/**
  The category filter shared by the home and commercial pages: the list of active filters,
  how a click toggles one, how "clear" empties them, and which projects the list lets through.
 */
module Filters {
  import Seqs

  /** `categories.some(c => active.includes(c))`. */
  predicate MatchesAny(categories: seq<string>, active: seq<string>) {
    exists i :: 0 <= i < |categories| && categories[i] in active
  }

  /**
    `active.length === 0 ? projects : projects.filter(p => MatchesAny(categoriesOf(p), active))`:
    no filter shows everything; otherwise a project shows when one of its categories is active.
   */
  function FilterByCategories<P(!new)>(projects: seq<P>, categoriesOf: P -> seq<string>, active: seq<string>): (r: seq<P>)
    ensures active == [] ==> r == projects
    ensures forall p :: p in r <==> p in projects && (active == [] || MatchesAny(categoriesOf(p), active))
    ensures Seqs.Subsequence(r, projects)
    ensures forall p :: multiset(r)[p] == if active == [] || MatchesAny(categoriesOf(p), active) then multiset(projects)[p] else 0
  {
    if active == [] then
      Seqs.SubsequenceRefl(projects);
      projects
    else
      var keep := (p: P) => MatchesAny(categoriesOf(p), active);
      Seqs.FilterSubsequence(keep, projects);
      Seqs.Filter(keep, projects)
  }

  /**
    Activating more filters never hides a project: with every filter of `a` also in `b`, the
    projects shown for `a` are, in order, among those shown for `b`.
   */
  lemma {:induction false} FilterWidens<P(!new)>(projects: seq<P>, categoriesOf: P -> seq<string>, a: seq<string>, b: seq<string>)
    requires a != [] && forall f :: f in a ==> f in b
    ensures Seqs.Subsequence(FilterByCategories(projects, categoriesOf, a), FilterByCategories(projects, categoriesOf, b))
    decreases |projects|
  {
    var ka := (p: P) => MatchesAny(categoriesOf(p), a);
    var kb := (p: P) => MatchesAny(categoriesOf(p), b);
    assert b != [] by {
      assert a[0] in b;
    }
    if projects == [] {
      Seqs.SubsequenceRefl<P>([]);
    } else {
      var p := projects[0];
      FilterWidens(projects[1..], categoriesOf, a, b);
      var ra, rb := Seqs.Filter(ka, projects[1..]), Seqs.Filter(kb, projects[1..]);
      assert ka(p) ==> kb(p) by {
        if ka(p) {
          var i :| 0 <= i < |categoriesOf(p)| && categoriesOf(p)[i] in a;
        }
      }
      if ka(p) {
        Seqs.SubsequenceRefl([p]);
        Seqs.SubsequenceConcat([p], [p], ra, rb);
      } else if kb(p) {
        Seqs.SubsequenceSuffix(ra, rb, [p]);
      }
    }
  }

  /** `prev.includes(f) ? prev.filter(x => x !== f) : [...prev, f]`. */
  function ToggleFilter(active: seq<string>, f: string): (r: seq<string>)
    ensures f in r <==> f !in active
    ensures forall x :: x != f ==> (x in r <==> x in active)
    ensures Seqs.NoDup(active) ==> Seqs.NoDup(r)
    ensures f !in active ==> r == active + [f]
    ensures f in active ==> Seqs.Subsequence(r, active)
  {
    if f in active then
      Seqs.FilterNoDup(x => x != f, active);
      Seqs.FilterSubsequence(x => x != f, active);
      Seqs.Filter(x => x != f, active)
    else
      active + [f]
  }

  /**
    Toggling the same filter twice restores the active set; when the filter was off it
    restores the list exactly.
   */
  lemma ToggleTwice(active: seq<string>, f: string)
    ensures forall x :: x in ToggleFilter(ToggleFilter(active, f), f) <==> x in active
    ensures f !in active ==> ToggleFilter(ToggleFilter(active, f), f) == active
  {
    if f !in active {
      var p := (x: string) => x != f;
      Seqs.FilterConcat(p, active, [f]);
      Seqs.FilterAll(p, active);
      Seqs.FilterSingleton(p, f);
      assert active + [] == active;
    }
  }

  /** `setActiveFilters([])`. */
  function ClearFilters(): (r: seq<string>)
    ensures forall f :: f !in r
  {
    []
  }

  /** After clearing, every project shows again, in its original order. */
  lemma ClearShowsEverything<P(!new)>(projects: seq<P>, categoriesOf: P -> seq<string>, active: seq<string>)
    ensures FilterByCategories(projects, categoriesOf, ClearFilters()) == projects
    ensures Seqs.Subsequence(FilterByCategories(projects, categoriesOf, active),
                             FilterByCategories(projects, categoriesOf, ClearFilters()))
  {
  }
}

=== FILE: grid.dfy ===
/**
  The responsive grids every listing page renders: the list itself on narrow screens, two
  columns on medium ones (`index % 2`) and three on wide ones (`index % 3`).
 */
module Grid {
  import Seqs

  datatype Layout<T> = Layout(mobile: seq<T>, tablet: seq<seq<T>>, desktop: seq<seq<T>>)

  /** The three layouts of one list of cards. */
  function Arrange<T>(items: seq<T>): (l: Layout<T>)
    ensures l.mobile == items && |l.tablet| == 2 && |l.desktop| == 3
    ensures forall k :: 0 <= k < 2 ==> Seqs.Subsequence(l.tablet[k], items)
    ensures forall k :: 0 <= k < 3 ==> Seqs.Subsequence(l.desktop[k], items)
  {
    Seqs.ColumnSubsequence(items, 0, 2);
    Seqs.ColumnSubsequence(items, 1, 2);
    Seqs.ColumnSubsequence(items, 0, 3);
    Seqs.ColumnSubsequence(items, 1, 3);
    Seqs.ColumnSubsequence(items, 2, 3);
    Layout(items,
           [Seqs.Column(items, 0, 2), Seqs.Column(items, 1, 2)],
           [Seqs.Column(items, 0, 3), Seqs.Column(items, 1, 3), Seqs.Column(items, 2, 3)])
  }

  /**
    Every card lands in exactly one place of the desktop grid: item `i` at row `i / 3` of
    column `i % 3`, and each column's cards are the items of its residue class in order.
   */
  lemma DesktopPlacement<T>(items: seq<T>)
    ensures forall i :: 0 <= i < |items| ==> i / 3 < |Arrange(items).desktop[i % 3]| && Arrange(items).desktop[i % 3][i / 3] == items[i]
  {
    var d := Arrange(items).desktop;
    Seqs.ColumnsCoverAll(items, 3);
    assert forall k :: 0 <= k < 3 ==> d[k] == Seqs.Column(items, k, 3);
  }

  /** The same for the two tablet columns. */
  lemma TabletPlacement<T>(items: seq<T>)
    ensures forall i :: 0 <= i < |items| ==> i / 2 < |Arrange(items).tablet[i % 2]| && Arrange(items).tablet[i % 2][i / 2] == items[i]
  {
    var t := Arrange(items).tablet;
    Seqs.ColumnsCoverAll(items, 2);
    assert forall k :: 0 <= k < 2 ==> t[k] == Seqs.Column(items, k, 2);
  }

  /**
    The desktop columns together hold as many cards as the list, so with `DesktopPlacement`
    they partition it; none is more than one card taller than a column to its right.
   */
  lemma DesktopSizes<T>(items: seq<T>)
    ensures var d := Arrange(items).desktop;
      && |d[0]| + |d[1]| + |d[2]| == |items|
      && |d[2]| <= |d[1]| <= |d[0]| <= |d[2]| + 1
  {
    Seqs.ColumnsPartition(items, 3);
    assert Seqs.ColumnsLength(items, 1, 3) == |Seqs.Column(items, 0, 3)|;
    assert Seqs.ColumnsLength(items, 2, 3) == Seqs.ColumnsLength(items, 1, 3) + |Seqs.Column(items, 1, 3)|;
    Seqs.ColumnSizes(items, 0, 1, 3);
    Seqs.ColumnSizes(items, 1, 2, 3);
    Seqs.ColumnSizes(items, 0, 2, 3);
  }

  /** With at most `3 * m` cards, no desktop column holds more than `m`. */
  lemma DesktopAtMost<T>(items: seq<T>, m: nat)
    requires |items| <= 3 * m
    ensures forall k :: 0 <= k < 3 ==> |Arrange(items).desktop[k]| <= m
  {
    DesktopSizes(items);
  }

  /** The tablet columns partition the list the same way. */
  lemma TabletSizes<T>(items: seq<T>)
    ensures var t := Arrange(items).tablet;
      && |t[0]| + |t[1]| == |items|
      && |t[1]| <= |t[0]| <= |t[1]| + 1
  {
    Seqs.ColumnsPartition(items, 2);
    assert Seqs.ColumnsLength(items, 1, 2) == |Seqs.Column(items, 0, 2)|;
    Seqs.ColumnSizes(items, 0, 1, 2);
  }
}

=== FILE: home_page.dfy ===
/**
  The case-study grid of the home page (`app/page.tsx`): where its projects come from, which
  of them show under the active filters, how they are laid out, and the filter buttons.
 */
module HomePage {
  import opened Wrappers
  import Environment
  import Seqs
  import Strings
  import NotionCases
  import Filters
  import Grid
  import NotionWebhook

  type CaseProject = NotionCases.CaseProject

  /** At most this many cards are shown. */
  const MaxDisplayed: nat := 12

  function CategoryTags(p: CaseProject): seq<string> {
    p.categoryTags
  }

  function FilteredProjects(projects: seq<CaseProject>, active: seq<string>): seq<CaseProject> {
    Filters.FilterByCategories(projects, CategoryTags, active)
  }

  /** `filteredProjects.slice(0, 12)`: the first twelve projects the filter lets through. */
  function DisplayedProjects(projects: seq<CaseProject>, active: seq<string>): (r: seq<CaseProject>)
    ensures |r| <= MaxDisplayed && |r| <= |FilteredProjects(projects, active)|
    ensures |r| == MaxDisplayed || r == FilteredProjects(projects, active)
    ensures r == FilteredProjects(projects, active)[..|r|]
    ensures Seqs.Subsequence(r, projects)
  {
    var filtered := FilteredProjects(projects, active);
    var n := if |filtered| < MaxDisplayed then |filtered| else MaxDisplayed;
    Seqs.PrefixSubsequence(filtered, n);
    Seqs.SubsequenceTrans(filtered[..n], filtered, projects);
    assert n == |filtered| ==> filtered[..n] == filtered;
    filtered[..n]
  }

  /**
    `ThreeColumnWorksSection`: the shown projects in the three responsive grids. Card `i` sits
    in desktop column `i % 3` and tablet column `i % 2`, so no column holds more than four.
   */
  function WorksSection(projects: seq<CaseProject>, active: seq<string>): (l: Grid.Layout<CaseProject>)
    ensures l == Grid.Arrange(DisplayedProjects(projects, active))
    ensures l.mobile == DisplayedProjects(projects, active)
    ensures |l.desktop| == 3 && forall k :: 0 <= k < 3 ==> |l.desktop[k]| <= 4
    ensures forall i :: 0 <= i < |l.mobile| ==> i / 3 < |l.desktop[i % 3]| && l.desktop[i % 3][i / 3] == l.mobile[i]
    ensures forall i :: 0 <= i < |l.mobile| ==> i / 2 < |l.tablet[i % 2]| && l.tablet[i % 2][i / 2] == l.mobile[i]
  {
    var shown := DisplayedProjects(projects, active);
    Grid.DesktopAtMost(shown, 4);
    Grid.DesktopPlacement(shown);
    Grid.TabletPlacement(shown);
    Grid.Arrange(shown)
  }

  /** A card's click target: `/work/<slug>`. */
  function CardPath(project: CaseProject): string {
    "/work/" + project.slug
  }

  /** The page a card opens is the page the Notion webhook revalidates for that record. */
  lemma CardPathIsRevalidatedPath(project: CaseProject)
    ensures CardPath(project) == NotionWebhook.DetailPath("cases", project.slug)
  {
  }

  // ---------------------------------------------------------------------------------------
  // Data source

  datatype DataSource = Database | Fallback

  datatype HomeData = HomeData(projects: seq<CaseProject>, source: DataSource)

  /** How the fetch settled: with a result, or by throwing. */
  datatype Fetched = Resolved(result: NotionCases.FetchResult) | Rejected

  /** The two built-in records shown when the database yields nothing. */
  const FallbackProjects: seq<CaseProject> := [
    NotionCases.CaseProject("fallback-1", "MAITREYA, LOGO DESIGN, IDENTITY, PACKAGING", ["IDENTITY", "PACKAGING"],
                            "", "", "/placeholder.svg?height=150&width=200", [], [], [], true, "", "maitreya-logo-design"),
    NotionCases.CaseProject("fallback-2", "FRESH BLACK COLD BREW, PACKAGING", ["PACKAGING"],
                            "", "", "/placeholder.svg?height=150&width=200", [], [], [], true, "", "fresh-black-cold-brew")
  ]

  /**
    The effect of `fetchCases`: a successful, non-empty result is shown as database data;
    any other result shows the fallback records; a throw empties the grid and leaves the
    source at its initial `fallback`.
   */
  function LoadProjects(outcome: Fetched): (r: HomeData)
    ensures r.source == Database <==> outcome.Resolved? && outcome.result.success && outcome.result.data != []
    ensures r.source == Database ==> r.projects == outcome.result.data
    ensures outcome.Resolved? && r.source == Fallback ==> r.projects == FallbackProjects
    ensures r.projects == [] <==> outcome.Rejected?
  {
    match outcome
    case Resolved(result) =>
      if result.success && |result.data| > 0 then HomeData(result.data, Database)
      else HomeData(FallbackProjects, Fallback)
    case Rejected => HomeData([], Fallback)
  }

  /**
    Fed by the fetcher, the page shows database data exactly when the query succeeded and at
    least one page passed the publish gate; the records shown are the published ones.
   */
  lemma LoadFromFetcher(env: Environment.Env, query: NotionCases.Query)
    ensures var data := LoadProjects(Resolved(NotionCases.GetCaseProjects(env, query)));
      data.source == Database <==>
        && NotionCases.GetCaseProjects(env, query).success
        && exists i :: 0 <= i < |NotionCases.QueriedPages(env, query)| && NotionCases.Publishable(NotionCases.QueriedPages(env, query)[i])
  {
    var result := NotionCases.GetCaseProjects(env, query);
    if result.success {
      var pages := NotionCases.QueriedPages(env, query);
      Seqs.FilterHead(NotionCases.Publishable, pages);
    }
  }

  // ---------------------------------------------------------------------------------------
  // Filter buttons

  /**
    `Array.from(new Set(projects.flatMap(p => p.categoryTags))).sort()`: every tag in use,
    once each, in ascending code-point order (equal to code-unit order inside the Basic
    Multilingual Plane).
   */
  function FilterCategories(projects: seq<CaseProject>): (r: seq<string>)
    ensures Strings.StrictlySorted(r)
    ensures forall t :: t in r <==> exists i :: 0 <= i < |projects| && t in projects[i].categoryTags
  {
    var tags := Seqs.FlatMap(CategoryTags, projects);
    var unique := Seqs.Dedupe(tags);
    Strings.SortDistinct(unique);
    Strings.Sort(unique)
  }

  /** The fallback records offer the two filters `IDENTITY` and `PACKAGING`, in that order. */
  lemma FallbackCategories()
    ensures FilterCategories(FallbackProjects) == ["IDENTITY", "PACKAGING"]
  {
    var tags := Seqs.FlatMap(CategoryTags, FallbackProjects);
    FallbackTags();
    var two: seq<string> := ["IDENTITY", "PACKAGING"];
    assert Seqs.Dedupe(tags) == two by {
      DedupeFallbackTags();
    }
    assert Strings.Sort(two) == two by {
      assert two[1..] == ["PACKAGING"];
      assert Strings.Sort(["PACKAGING"]) == ["PACKAGING"] by {
        assert ["PACKAGING"][1..] == [];
      }
      assert Strings.LexLess("IDENTITY", "PACKAGING");
    }
  }

  lemma FallbackTags()
    ensures Seqs.FlatMap(CategoryTags, FallbackProjects) == ["IDENTITY", "PACKAGING", "PACKAGING"]
  {
    assert FallbackProjects[1..][1..] == [];
  }

  lemma DedupeFallbackTags()
    ensures Seqs.Dedupe(["IDENTITY", "PACKAGING", "PACKAGING"]) == ["IDENTITY", "PACKAGING"]
  {
    var one: seq<string> := ["IDENTITY"];
    var two: seq<string> := ["IDENTITY", "PACKAGING"];
    var three: seq<string> := ["IDENTITY", "PACKAGING", "PACKAGING"];
    assert one[..0] == [];
    assert Seqs.Dedupe(one) == one;
    assert two[..1] == one;
    assert Seqs.Dedupe(two) == two;
    assert three[..2] == two;
  }
}

=== FILE: notion_cases.dfy ===
/**
  The case-study fetcher of `lib/notion-cases.ts`: defensive extraction of loosely typed
  database properties, slug derivation, the per-page inclusion gate, the result envelope
  of `getCaseProjects` and the lookup `getCaseBySlug`.

  The database query is a parameter (`Query`): given the token and the cleaned database id
  it yields either the raw pages or a failure message. The environment is a map.
 */
module NotionCases {
  import opened Wrappers
  import opened Environment
  import opened Strings
  import Seqs

  /** The canonical record (`CaseProject`). */
  datatype CaseProject = CaseProject(
    id: string,
    projectTitle: string,
    categoryTags: seq<string>,
    description: string,
    team: string,
    introImage: string,
    projectMedia: seq<string>,
    draftProcess: seq<string>,
    addMedia: seq<string>,
    publish: bool,
    link: string,
    slug: string)

  /**
    A property value that should be a list. A missing or falsy property reaches the extractor
    as `[]` (the caller's `|| []`); a truthy value that is not an array is `NotAList`.
   */
  datatype Shaped<T> = NotAList | AList(items: seq<T>)

  /** A rich-text fragment; `plain_text` may be absent. */
  datatype TextFragment = TextFragment(plainText: Option<string>)

  /** A files-property entry: a hosted file, an external link, or some other `type`. */
  datatype FileEntry =
    | HostedFile(fileUrl: Option<string>)
    | ExternalFile(externalUrl: Option<string>)
    | OtherFile

  /** A multi-select option; `name` may be absent. */
  datatype SelectOption = SelectOption(name: Option<string>)

  /** The `properties` container of a page, one field per database column read. */
  datatype Properties = Properties(
    projectTitle: Shaped<TextFragment>,
    description: Shaped<TextFragment>,
    team: Shaped<TextFragment>,
    categoryTags: Shaped<SelectOption>,
    introImage: Shaped<FileEntry>,
    projectMedia: Shaped<FileEntry>,
    draftProcess: Shaped<FileEntry>,
    addMedia: Shaped<FileEntry>,
    publish: bool,
    link: Option<string>)

  /**
    A raw query result. `Malformed` stands for a page whose extraction throws (a `null` entry
    inside one of its lists makes a `.map` callback fail); it ends in the per-page catch.
   */
  datatype RawPage =
    | PageWithProperties(id: string, properties: Properties)
    | PageWithoutProperties(id: string)
    | Malformed(id: string)

  // ---------------------------------------------------------------------------------------
  // Database id

  /** `id.replace(/-/g, "")`. */
  function CleanDatabaseId(id: string): (r: string)
    ensures '-' !in r
    ensures forall c :: c != '-' ==> multiset(r)[c] == multiset(id)[c]
    ensures Seqs.Subsequence(r, id)
  {
    Seqs.FilterSubsequence(c => c != '-', id);
    Seqs.Filter(c => c != '-', id)
  }

  /** Cleaning twice is cleaning once; an id without hyphens is left as it is. */
  lemma CleanDatabaseIdIdempotent(id: string)
    ensures CleanDatabaseId(CleanDatabaseId(id)) == CleanDatabaseId(id)
    ensures '-' !in id ==> CleanDatabaseId(id) == id
  {
    var r := CleanDatabaseId(id);
    Seqs.FilterAll(c => c != '-', r);
    if '-' !in id {
      Seqs.FilterAll(c => c != '-', id);
    }
  }

  // ---------------------------------------------------------------------------------------
  // Extractors

  function FragmentText(f: TextFragment): string {
    OrEmpty(f.plainText)
  }

  function ConcatFragments(items: seq<TextFragment>): string {
    if items == [] then "" else FragmentText(items[0]) + ConcatFragments(items[1..])
  }

  /** `extractTextFromRichText`: the fragments' `plain_text` joined in order. */
  function ExtractText(v: Shaped<TextFragment>): (r: string)
    ensures v.NotAList? ==> r == ""
    ensures v.AList? && |v.items| == 1 ==> r == OrEmpty(v.items[0].plainText)
    ensures r != "" <==> v.AList? && exists i :: 0 <= i < |v.items| && Truthy(v.items[i].plainText)
  {
    match v
    case NotAList => ""
    case AList(items) =>
      TextNonEmpty(items);
      ConcatFragments(items)
  }

  lemma {:induction false} TextNonEmpty(items: seq<TextFragment>)
    ensures ConcatFragments(items) != "" <==> exists i :: 0 <= i < |items| && Truthy(items[i].plainText)
  {
    if items != [] {
      TextNonEmpty(items[1..]);
      assert forall i :: 1 <= i < |items| ==> items[i] == items[1..][i - 1];
      if ConcatFragments(items[1..]) != "" {
        var i :| 0 <= i < |items[1..]| && Truthy(items[1..][i].plainText);
        assert Truthy(items[i + 1].plainText);
      }
    }
  }

  /** Extraction distributes over concatenation of the fragment list: the text is built in order. */
  lemma {:induction false} ExtractTextConcat(a: seq<TextFragment>, b: seq<TextFragment>)
    ensures ExtractText(AList(a + b)) == ExtractText(AList(a)) + ExtractText(AList(b))
  {
    ConcatFragmentsAppend(a, b);
  }

  lemma {:induction false} ConcatFragmentsAppend(a: seq<TextFragment>, b: seq<TextFragment>)
    ensures ConcatFragments(a + b) == ConcatFragments(a) + ConcatFragments(b)
  {
    if a == [] {
      assert a + b == b;
    } else {
      calc {
        ConcatFragments(a + b);
        { assert (a + b)[0] == a[0] && (a + b)[1..] == a[1..] + b; }
        FragmentText(a[0]) + ConcatFragments(a[1..] + b);
        { ConcatFragmentsAppend(a[1..], b); }
        FragmentText(a[0]) + (ConcatFragments(a[1..]) + ConcatFragments(b));
      }
    }
  }

  /** The `.map` callback of `extractFilesFromProperty`. */
  function FileUrl(f: FileEntry): string {
    match f
    case HostedFile(url) => OrEmpty(url)
    case ExternalFile(url) => OrEmpty(url)
    case OtherFile => ""
  }

  predicate NonEmpty(s: string) { s != "" }

  /** Keeping the non-empty strings keeps each of them as often as it occurs. */
  lemma KeepNonEmpty(xs: seq<string>)
    ensures forall u :: u != "" ==> multiset(Seqs.Filter(NonEmpty, xs))[u] == multiset(xs)[u]
  {
    Seqs.FilterSubsequence(NonEmpty, xs);
  }

  /** `extractFilesFromProperty`: the non-empty URLs of hosted and external files, in order. */
  function ExtractFiles(v: Shaped<FileEntry>): (r: seq<string>)
    ensures v.NotAList? ==> r == []
    ensures v.AList? ==> |r| <= |v.items|
    ensures forall i :: 0 <= i < |r| ==> r[i] != ""
    ensures forall u :: u in r <==> v.AList? && u != "" && exists i :: 0 <= i < |v.items| && FileUrl(v.items[i]) == u
    ensures v.AList? ==> forall u :: u != "" ==> multiset(r)[u] == multiset(Seqs.Map(FileUrl, v.items))[u]
  {
    match v
    case NotAList => []
    case AList(items) =>
      var urls := Seqs.Map(FileUrl, items);
      assert forall u :: u in urls <==> exists i :: 0 <= i < |items| && FileUrl(items[i]) == u;
      KeepNonEmpty(urls);
      Seqs.Filter(NonEmpty, urls)
  }

  /** `extractFilesFromProperty(...)[0] || ""`: the image a page is shown with. */
  function FirstFile(v: Shaped<FileEntry>): string {
    var files := ExtractFiles(v);
    if files == [] then "" else files[0]
  }

  /** The first file is the URL of the first entry that has a non-empty one, or `""` if none has. */
  lemma FirstFileIsFirstUrl(v: Shaped<FileEntry>)
    ensures FirstFile(v) != "" <==> v.AList? && exists i :: 0 <= i < |v.items| && FileUrl(v.items[i]) != ""
    ensures FirstFile(v) != "" ==>
      exists i :: 0 <= i < |v.items| && FirstFile(v) == FileUrl(v.items[i])
                  && forall j :: 0 <= j < i ==> FileUrl(v.items[j]) == ""
  {
    if v.AList? {
      var urls := Seqs.Map(FileUrl, v.items);
      Seqs.FilterHead(NonEmpty, urls);
    }
  }

  function OptionName(o: SelectOption): string {
    OrEmpty(o.name)
  }

  /** `extractMultiSelectFromProperty`: the non-empty option names, in order. */
  function ExtractLabels(v: Shaped<SelectOption>): (r: seq<string>)
    ensures v.NotAList? ==> r == []
    ensures v.AList? ==> |r| <= |v.items|
    ensures forall i :: 0 <= i < |r| ==> r[i] != ""
    ensures forall l :: l in r <==> v.AList? && l != "" && exists i :: 0 <= i < |v.items| && OptionName(v.items[i]) == l
    ensures v.AList? ==> forall l :: l != "" ==> multiset(r)[l] == multiset(Seqs.Map(OptionName, v.items))[l]
  {
    match v
    case NotAList => []
    case AList(items) =>
      var names := Seqs.Map(OptionName, items);
      assert forall l :: l in names <==> exists i :: 0 <= i < |items| && OptionName(items[i]) == l;
      KeepNonEmpty(names);
      Seqs.Filter(NonEmpty, names)
  }

  /** The labels keep their order: they are a subsequence of the option names. */
  lemma ExtractLabelsOrder(items: seq<SelectOption>)
    ensures Seqs.Subsequence(ExtractLabels(AList(items)), Seqs.Map(OptionName, items))
  {
    Seqs.FilterSubsequence(NonEmpty, Seqs.Map(OptionName, items));
  }

  /** The files keep their order: they are a subsequence of the entries' URLs. */
  lemma ExtractFilesOrder(items: seq<FileEntry>)
    ensures Seqs.Subsequence(ExtractFiles(AList(items)), Seqs.Map(FileUrl, items))
  {
    Seqs.FilterSubsequence(NonEmpty, Seqs.Map(FileUrl, items));
  }

  // ---------------------------------------------------------------------------------------
  // Slugs

  /** A well-formed slug: `[a-z0-9-]` only, no hyphen at either end, never two in a row. */
  predicate IsSlug(s: string) {
    && (forall i :: 0 <= i < |s| ==> IsSlugAlnum(s[i]) || s[i] == '-')
    && (s != [] ==> s[0] != '-' && s[|s| - 1] != '-')
    && NoDoubleHyphen(s)
  }

  predicate NoDoubleHyphen(s: string) {
    forall i :: 0 <= i < |s| - 1 ==> !(s[i] == '-' && s[i + 1] == '-')
  }

  predicate SlugChars(s: string) {
    forall i :: 0 <= i < |s| ==> IsSlugAlnum(s[i]) || s[i] == '-'
  }

  /** Drops a leading run of characters outside `[a-z0-9]`. */
  function DropSeparators(s: string): (r: string)
    ensures |r| <= |s| && r == s[|s| - |r|..]
    ensures r == [] || IsSlugAlnum(r[0])
    ensures forall i :: 0 <= i < |s| - |r| ==> !IsSlugAlnum(s[i])
  {
    if s != [] && !IsSlugAlnum(s[0]) then
      var r := DropSeparators(s[1..]);
      assert s[1..][|s[1..]| - |r|..] == s[|s| - |r|..];
      assert forall i :: 1 <= i < |s| - |r| ==> s[i] == s[1..][i - 1];
      r
    else s
  }

  /** `.replace(/[^a-z0-9]+/g, "-")`: each maximal run outside `[a-z0-9]` becomes one hyphen. */
  function SquashSeparators(s: string): (r: string)
    ensures SlugChars(r) && NoDoubleHyphen(r)
    ensures r == [] <==> s == []
    ensures r != [] ==> (r[0] == '-' <==> !IsSlugAlnum(s[0]))
    decreases |s|
  {
    if s == [] then []
    else if IsSlugAlnum(s[0]) then [s[0]] + SquashSeparators(s[1..])
    else "-" + SquashSeparators(DropSeparators(s[1..]))
  }

  /** Drops leading hyphens. */
  function TrimLeading(s: string): (r: string)
    ensures |r| <= |s| && r == s[|s| - |r|..]
    ensures r == [] || r[0] != '-'
    ensures forall i :: 0 <= i < |s| - |r| ==> s[i] == '-'
  {
    if s != [] && s[0] == '-' then
      var r := TrimLeading(s[1..]);
      assert s[1..][|s[1..]| - |r|..] == s[|s| - |r|..];
      assert forall i :: 1 <= i < |s| - |r| ==> s[i] == s[1..][i - 1];
      r
    else s
  }

  /** Drops trailing hyphens. */
  function TrimTrailing(s: string): (r: string)
    ensures |r| <= |s| && r == s[..|r|]
    ensures r == [] || r[|r| - 1] != '-'
    ensures forall i :: |r| <= i < |s| ==> s[i] == '-'
  {
    if s != [] && s[|s| - 1] == '-' then
      var r := TrimTrailing(s[..|s| - 1]);
      assert s[..|s| - 1][..|r|] == s[..|r|];
      r
    else s
  }

  /**
    `generateSlug`: lower-case, collapse separator runs to `-`, then trim hyphens at both ends
    (`.replace(/^-+|-+$/g, "")`). Every slug is well formed.
   */
  function GenerateSlug(title: string): (r: string)
    ensures IsSlug(r)
  {
    var q := SquashSeparators(ToLower(title));
    TrimmedIsSlug(q);
    TrimTrailing(TrimLeading(q))
  }

  /** Trimming both ends of a squashed string leaves a well-formed slug. */
  lemma TrimmedIsSlug(q: string)
    requires SlugChars(q) && NoDoubleHyphen(q)
    ensures IsSlug(TrimTrailing(TrimLeading(q)))
  {
    var a := TrimLeading(q);
    var r := TrimTrailing(a);
    SuffixKeepsSlugChars(q, |q| - |a|);
    PrefixKeepsSlugChars(a, |r|);
    assert r != [] ==> r[0] == a[0];
  }

  lemma SuffixKeepsSlugChars(s: string, lo: nat)
    requires lo <= |s|
    requires SlugChars(s) && NoDoubleHyphen(s)
    ensures SlugChars(s[lo..]) && NoDoubleHyphen(s[lo..])
  {
    var t := s[lo..];
    assert forall i :: 0 <= i < |t| ==> t[i] == s[lo + i];
  }

  lemma PrefixKeepsSlugChars(s: string, hi: nat)
    requires hi <= |s|
    requires SlugChars(s) && NoDoubleHyphen(s)
    ensures SlugChars(s[..hi]) && NoDoubleHyphen(s[..hi])
  {
    var t := s[..hi];
    assert forall i :: 0 <= i < |t| ==> t[i] == s[i];
  }

  /** Keeping only `[a-z0-9]`: what survives of a string in its slug. */
  function Alnums(s: string): string {
    Seqs.Filter(IsSlugAlnum, s)
  }

  lemma AlnumsDropped(s: string, k: nat)
    requires k <= |s|
    requires forall i :: 0 <= i < k ==> !IsSlugAlnum(s[i])
    ensures Alnums(s[k..]) == Alnums(s)
  {
    Seqs.FilterConcat(IsSlugAlnum, s[..k], s[k..]);
    assert s[..k] + s[k..] == s;
    Seqs.FilterHead(IsSlugAlnum, s[..k]);
  }

  lemma AlnumsTrailingDropped(s: string, k: nat)
    requires k <= |s|
    requires forall i :: k <= i < |s| ==> !IsSlugAlnum(s[i])
    ensures Alnums(s[..k]) == Alnums(s)
  {
    Seqs.FilterConcat(IsSlugAlnum, s[..k], s[k..]);
    assert s[..k] + s[k..] == s;
    Seqs.FilterHead(IsSlugAlnum, s[k..]);
    assert forall i :: 0 <= i < |s[k..]| ==> s[k..][i] == s[k + i];
  }

  /** Squashing separators keeps every letter and digit, in order, and nothing else of them. */
  lemma {:induction false} SquashKeepsAlnums(s: string)
    ensures Alnums(SquashSeparators(s)) == Alnums(s)
    decreases |s|
  {
    if s != [] {
      var tail := s[1..];
      assert s == [s[0]] + tail;
      if IsSlugAlnum(s[0]) {
        SquashKeepsAlnums(tail);
        AlnumsCons(s[0], SquashSeparators(tail), tail);
      } else {
        var d := DropSeparators(tail);
        SquashKeepsAlnums(d);
        AlnumsSkip('-', SquashSeparators(d));
        AlnumsDropped(tail, |tail| - |d|);
        AlnumsSkip(s[0], tail);
      }
    }
  }

  /** A letter or digit in front is kept in front. */
  lemma AlnumsCons(c: char, x: string, y: string)
    requires IsSlugAlnum(c) && Alnums(x) == Alnums(y)
    ensures Alnums([c] + x) == Alnums([c] + y)
  {
    Seqs.FilterCons(IsSlugAlnum, c, x);
    Seqs.FilterCons(IsSlugAlnum, c, y);
  }

  /** Any other character in front is not seen. */
  lemma AlnumsSkip(c: char, x: string)
    requires !IsSlugAlnum(c)
    ensures Alnums([c] + x) == Alnums(x)
  {
    Seqs.FilterCons(IsSlugAlnum, c, x);
  }

  /**
    The slug keeps exactly the letters and digits of the lower-cased title, in order: the
    hyphens between them are the only other characters.
   */
  lemma GenerateSlugKeepsAlnums(title: string)
    ensures Alnums(GenerateSlug(title)) == Alnums(ToLower(title))
  {
    var q := SquashSeparators(ToLower(title));
    SquashKeepsAlnums(ToLower(title));
    TrimLeadingKeepsAlnums(q);
    TrimTrailingKeepsAlnums(TrimLeading(q));
  }

  lemma TrimLeadingKeepsAlnums(s: string)
    ensures Alnums(TrimLeading(s)) == Alnums(s)
  {
    var a := TrimLeading(s);
    AlnumsDropped(s, |s| - |a|);
  }

  lemma TrimTrailingKeepsAlnums(s: string)
    ensures Alnums(TrimTrailing(s)) == Alnums(s)
  {
    AlnumsTrailingDropped(s, |TrimTrailing(s)|);
  }

  /** The slug is empty exactly when the title has no ASCII letter or digit. */
  lemma GenerateSlugEmpty(title: string)
    ensures GenerateSlug(title) == "" <==>
      forall i :: 0 <= i < |title| ==> !(IsSlugAlnum(title[i]) || IsUpperAscii(title[i]))
  {
    var r := GenerateSlug(title);
    var lower := ToLower(title);
    assert r == "" <==> Alnums(r) == "" by {
      Seqs.FilterHead(IsSlugAlnum, r);
      if r != "" {
        assert r[0] != '-' && IsSlugAlnum(r[0]);
      }
    }
    assert Alnums(r) == Alnums(lower) by {
      GenerateSlugKeepsAlnums(title);
    }
    assert Alnums(lower) == "" <==> forall i :: 0 <= i < |lower| ==> !IsSlugAlnum(lower[i]) by {
      Seqs.FilterHead(IsSlugAlnum, lower);
    }
    assert forall i :: 0 <= i < |title| ==> (IsSlugAlnum(lower[i]) <==> IsSlugAlnum(title[i]) || IsUpperAscii(title[i]));
  }

  lemma {:induction false} SquashSlugChars(s: string)
    requires SlugChars(s) && NoDoubleHyphen(s)
    ensures SquashSeparators(s) == s
    decreases |s|
  {
    if s != [] {
      var t := s[1..];
      assert s == [s[0]] + t;
      SuffixKeepsSlugChars(s, 1);
      SquashSlugChars(t);
      if !IsSlugAlnum(s[0]) {
        assert s[0] == '-';
        assert t == [] || IsSlugAlnum(t[0]);
        assert DropSeparators(t) == t;
      }
    }
  }

  /** A run of separators followed by a letter, a digit or the end is dropped whole. */
  lemma {:induction false} DropRun(sep: string, y: string)
    requires forall i :: 0 <= i < |sep| ==> !IsSlugAlnum(sep[i])
    requires y == [] || IsSlugAlnum(y[0])
    ensures DropSeparators(sep + y) == y
    decreases |sep|
  {
    if sep != [] {
      var t := sep[1..];
      assert (sep + y)[1..] == t + y;
      assert forall i :: 0 <= i < |t| ==> t[i] == sep[i + 1];
      DropRun(t, y);
    }
  }

  /** Dropping separators never reaches past a letter or digit. */
  lemma {:induction false} DropConcat(s: string, b: string)
    requires s != [] && IsSlugAlnum(s[|s| - 1])
    ensures DropSeparators(s + b) == DropSeparators(s) + b
    decreases |s|
  {
    if !IsSlugAlnum(s[0]) {
      var t := s[1..];
      assert (s + b)[1..] == t + b;
      assert t[|t| - 1] == s[|s| - 1];
      DropConcat(t, b);
    }
  }

  /**
    No separator run crosses a letter or digit, so squashing splits at one: the part before
    it and the part after are squashed independently.
   */
  lemma {:induction false} SquashConcat(a: string, b: string)
    requires a == [] || IsSlugAlnum(a[|a| - 1])
    ensures SquashSeparators(a + b) == SquashSeparators(a) + SquashSeparators(b)
    decreases |a|, 1
  {
    if a == [] {
      assert a + b == b;
    } else if IsSlugAlnum(a[0]) {
      SquashConcatAlnum(a, b);
    } else {
      SquashConcatSeparator(a, b);
    }
  }

  lemma {:induction false} SquashConcatAlnum(a: string, b: string)
    requires a != [] && IsSlugAlnum(a[0]) && IsSlugAlnum(a[|a| - 1])
    ensures SquashSeparators(a + b) == SquashSeparators(a) + SquashSeparators(b)
    decreases |a|, 0
  {
    var t := a[1..];
    assert t == [] || t[|t| - 1] == a[|a| - 1];
    SquashFrontAlnum(a, b);
    SquashConcat(t, b);
    Seqs.ConcatAssoc([a[0]], SquashSeparators(t), SquashSeparators(b));
  }

  lemma {:induction false} SquashConcatSeparator(a: string, b: string)
    requires a != [] && !IsSlugAlnum(a[0]) && IsSlugAlnum(a[|a| - 1])
    ensures SquashSeparators(a + b) == SquashSeparators(a) + SquashSeparators(b)
    decreases |a|, 0
  {
    var t := a[1..];
    assert t != [] && t[|t| - 1] == a[|a| - 1];
    var d := DropSeparators(t);
    assert d != [] && d[|d| - 1] == t[|t| - 1];
    SquashFrontSeparator(a, b);
    DropConcat(t, b);
    SquashConcat(d, b);
    Seqs.ConcatAssoc("-", SquashSeparators(d), SquashSeparators(b));
  }

  /** One step of squashing a letter or digit in front of `a + b`. */
  lemma SquashFrontAlnum(a: string, b: string)
    requires a != [] && IsSlugAlnum(a[0])
    ensures SquashSeparators(a) == [a[0]] + SquashSeparators(a[1..])
    ensures SquashSeparators(a + b) == [a[0]] + SquashSeparators(a[1..] + b)
  {
    assert (a + b)[0] == a[0] && (a + b)[1..] == a[1..] + b;
  }

  /** One step of squashing a separator in front of `a + b`. */
  lemma SquashFrontSeparator(a: string, b: string)
    requires a != [] && !IsSlugAlnum(a[0])
    ensures SquashSeparators(a) == "-" + SquashSeparators(DropSeparators(a[1..]))
    ensures SquashSeparators(a + b) == "-" + SquashSeparators(DropSeparators(a[1..] + b))
  {
    assert (a + b)[0] == a[0] && (a + b)[1..] == a[1..] + b;
  }

  /** A separator run in front of a letter, a digit or the end squashes to one hyphen. */
  lemma SquashRun(sep: string, y: string)
    requires sep != [] && forall i :: 0 <= i < |sep| ==> !IsSlugAlnum(sep[i])
    requires y == [] || IsSlugAlnum(y[0])
    ensures SquashSeparators(sep + y) == "-" + SquashSeparators(y)
  {
    var t := sep[1..];
    assert (sep + y)[0] == sep[0] && (sep + y)[1..] == t + y;
    assert forall i :: 0 <= i < |t| ==> t[i] == sep[i + 1];
    DropRun(t, y);
  }

  /**
    Each maximal run of separators between two letters or digits (or at either end) becomes
    exactly one hyphen, and the text on either side is squashed on its own.
   */
  lemma SeparatorRunIsOneHyphen(x: string, sep: string, y: string)
    requires x == [] || IsSlugAlnum(x[|x| - 1])
    requires sep != [] && forall i :: 0 <= i < |sep| ==> !IsSlugAlnum(sep[i])
    requires y == [] || IsSlugAlnum(y[0])
    ensures SquashSeparators(x + sep + y) == SquashSeparators(x) + "-" + SquashSeparators(y)
  {
    Seqs.ConcatAssoc(x, sep, y);
    SquashConcat(x, sep + y);
    SquashRun(sep, y);
    Seqs.ConcatAssoc(SquashSeparators(x), "-", SquashSeparators(y));
  }

  const ExampleTitle: string := "MAITREYA, LOGO DESIGN!"
  const ExampleSlug: string := "maitreya-logo-design"

  /** A worked example: the title `"MAITREYA, LOGO DESIGN!"` gets the slug `maitreya-logo-design`. */
  lemma ExampleTitleSlug()
    ensures GenerateSlug(ExampleTitle) == ExampleSlug
  {
    var q := SquashSeparators(ToLower(ExampleTitle));
    ExampleTitleSquashed();
    assert q[0] == ExampleSlug[0] == 'm';
    assert TrimLeading(q) == q;
    TrimOneTrailing(ExampleSlug);
  }

  lemma TrimOneTrailing(w: string)
    requires w != [] && w[|w| - 1] != '-'
    ensures TrimTrailing(w + "-") == w
  {
    assert (w + "-")[..|w|] == w;
  }

  lemma ExampleSlugPieces()
    ensures "maitreya" + "-" + ("logo" + "-" + ("design" + "-" + "")) == ExampleSlug + "-"
  {
  }

  lemma ExampleTitleLower()
    ensures ToLower(ExampleTitle) == "maitreya" + ", " + ("logo" + " " + ("design" + "!" + ""))
  {
  }

  lemma ExampleTitleSquashed()
    ensures SquashSeparators(ToLower(ExampleTitle)) == ExampleSlug + "-"
  {
    calc {
      SquashSeparators(ToLower(ExampleTitle));
      { ExampleTitleLower(); }
      SquashSeparators("maitreya" + ", " + ("logo" + " " + ("design" + "!" + "")));
      { ExampleRun1(); }
      SquashSeparators("maitreya") + "-" + SquashSeparators("logo" + " " + ("design" + "!" + ""));
      { ExampleRun2(); }
      SquashSeparators("maitreya") + "-" + (SquashSeparators("logo") + "-" + SquashSeparators("design" + "!" + ""));
      { ExampleRun3(); }
      SquashSeparators("maitreya") + "-" + (SquashSeparators("logo") + "-" + (SquashSeparators("design") + "-" + SquashSeparators("")));
      { ExampleWordsSquashed(); }
      "maitreya" + "-" + ("logo" + "-" + ("design" + "-" + ""));
      { ExampleSlugPieces(); }
      ExampleSlug + "-";
    }
  }

  lemma ExampleRun1()
    ensures SquashSeparators("maitreya" + ", " + ("logo" + " " + ("design" + "!" + ""))) ==
            SquashSeparators("maitreya") + "-" + SquashSeparators("logo" + " " + ("design" + "!" + ""))
  {
    SeparatorRunIsOneHyphen("maitreya", ", ", "logo" + " " + ("design" + "!" + ""));
  }

  lemma ExampleRun2()
    ensures SquashSeparators("logo" + " " + ("design" + "!" + "")) == SquashSeparators("logo") + "-" + SquashSeparators("design" + "!" + "")
  {
    SeparatorRunIsOneHyphen("logo", " ", "design" + "!" + "");
  }

  lemma ExampleRun3()
    ensures SquashSeparators("design" + "!" + "") == SquashSeparators("design") + "-" + SquashSeparators("")
  {
    SeparatorRunIsOneHyphen("design", "!", "");
  }

  lemma ExampleWordsSquashed()
    ensures SquashSeparators("maitreya") == "maitreya"
    ensures SquashSeparators("logo") == "logo"
    ensures SquashSeparators("design") == "design"
  {
    ExampleWordSquashed("maitreya");
    ExampleWordSquashed("logo");
    ExampleWordSquashed("design");
  }

  lemma ExampleWordSquashed(w: string)
    requires w == "maitreya" || w == "logo" || w == "design"
    ensures SquashSeparators(w) == w
  {
    assert forall i :: 0 <= i < |w| ==> IsSlugAlnum(w[i]);
    WordIsSquashed(w);
  }

  /** A word of letters and digits is left as it is. */
  lemma WordIsSquashed(w: string)
    requires forall i :: 0 <= i < |w| ==> IsSlugAlnum(w[i])
    ensures SquashSeparators(w) == w
  {
    SquashSlugChars(w);
  }

  /** A well-formed slug is its own slug. */
  lemma GenerateSlugFixpoint(s: string)
    requires IsSlug(s)
    ensures GenerateSlug(s) == s
  {
    assert ToLower(s) == s;
    SquashSlugChars(s);
  }

  /** `generateSlug` is idempotent. */
  lemma GenerateSlugIdempotent(title: string)
    ensures GenerateSlug(GenerateSlug(title)) == GenerateSlug(title)
  {
    GenerateSlugFixpoint(GenerateSlug(title));
  }

  // ---------------------------------------------------------------------------------------
  // Per-page gate

  datatype Warning =
    | NoPropertiesFound(pageId: string)
    | MissingTitle
    | MissingIntroImage(title: string)
    | NotPublished(title: string)
    | ProcessingFailed(pageId: string)

  datatype PageOutcome = Included(project: CaseProject) | Skipped(warning: Warning)

  /** The record a page with properties projects to. */
  function ProjectOf(id: string, p: Properties): (r: CaseProject)
    ensures r.id == id && IsSlug(r.slug) && r.slug == GenerateSlug(r.projectTitle)
    ensures r.projectTitle != "" <==> p.projectTitle.AList? && exists i :: 0 <= i < |p.projectTitle.items| && Truthy(p.projectTitle.items[i].plainText)
    ensures forall i :: 0 <= i < |r.categoryTags| ==> r.categoryTags[i] != ""
    ensures forall i :: 0 <= i < |r.projectMedia| ==> r.projectMedia[i] != ""
    ensures r.publish == p.publish
  {
    var title := ExtractText(p.projectTitle);
    CaseProject(
      id := id,
      projectTitle := title,
      categoryTags := ExtractLabels(p.categoryTags),
      description := ExtractText(p.description),
      team := ExtractText(p.team),
      introImage := FirstFile(p.introImage),
      projectMedia := ExtractFiles(p.projectMedia),
      draftProcess := ExtractFiles(p.draftProcess),
      addMedia := ExtractFiles(p.addMedia),
      publish := p.publish,
      link := OrEmpty(p.link),
      slug := GenerateSlug(title))
  }

  /**
    The inclusion rule stated on the raw data: the page has properties, some title fragment
    has text, some intro-image entry has a URL, and the publish box is ticked.
   */
  predicate Publishable(page: RawPage) {
    && page.PageWithProperties?
    && page.properties.projectTitle.AList?
    && (exists i :: 0 <= i < |page.properties.projectTitle.items|
                    && Truthy(page.properties.projectTitle.items[i].plainText))
    && page.properties.introImage.AList?
    && (exists i :: 0 <= i < |page.properties.introImage.items|
                    && FileUrl(page.properties.introImage.items[i]) != "")
    && page.properties.publish
  }

  /** The record of a publishable page (the empty record for any other page). */
  function RecordOf(page: RawPage): CaseProject {
    match page
    case PageWithProperties(id, p) => ProjectOf(id, p)
    case _ => CaseProject("", "", [], "", "", "", [], [], [], false, "", "")
  }

  /** The warning a skipped page reports (the first failing check). */
  function WarningOf(page: RawPage): Warning {
    match page
    case PageWithoutProperties(id) => NoPropertiesFound(id)
    case Malformed(id) => ProcessingFailed(id)
    case PageWithProperties(_, p) =>
      var title := ExtractText(p.projectTitle);
      if title == "" then MissingTitle
      else if FirstFile(p.introImage) == "" then MissingIntroImage(title)
      else NotPublished(title)
  }

  /** One iteration of the loop over the query results (lines 151-213). */
  function ProcessPage(page: RawPage): (r: PageOutcome)
    ensures r.Included? ==> r.project == RecordOf(page)
    ensures r.Skipped? ==> r.warning == WarningOf(page)
    ensures r.Included? ==> && r.project.id == page.id
                            && r.project.projectTitle != ""
                            && r.project.introImage != ""
                            && r.project.publish
                            && r.project.slug == GenerateSlug(r.project.projectTitle)
  {
    match page
    case PageWithoutProperties(id) => Skipped(NoPropertiesFound(id))
    case Malformed(id) => Skipped(ProcessingFailed(id))
    case PageWithProperties(id, p) =>
      var title := ExtractText(p.projectTitle);
      var introImage := FirstFile(p.introImage);
      if title == "" then Skipped(MissingTitle)
      else if introImage == "" then Skipped(MissingIntroImage(title))
      else if !p.publish then Skipped(NotPublished(title))
      else Included(ProjectOf(id, p))
  }

  /** A page is included exactly when it is publishable. */
  lemma ProcessPageGate(page: RawPage)
    ensures ProcessPage(page).Included? <==> Publishable(page)
  {
    if page.PageWithProperties? {
      var p := page.properties;
      FirstFileIsFirstUrl(p.introImage);
      assert ExtractText(p.projectTitle) != "" <==>
        p.projectTitle.AList? && exists i :: 0 <= i < |p.projectTitle.items| && Truthy(p.projectTitle.items[i].plainText);
    }
  }

  lemma ProcessPageIncluded(page: RawPage)
    requires Publishable(page)
    ensures ProcessPage(page) == Included(RecordOf(page))
  {
    ProcessPageGate(page);
  }

  lemma ProcessPageSkipped(page: RawPage)
    requires !Publishable(page)
    ensures ProcessPage(page) == Skipped(WarningOf(page))
  {
    ProcessPageGate(page);
  }

  /** The skip reason is the first check that fails, in the order title, intro image, publish. */
  lemma SkipReasonOrder(page: RawPage)
    requires page.PageWithProperties?
    ensures var p := page.properties;
      && (ExtractText(p.projectTitle) == "" ==> ProcessPage(page) == Skipped(MissingTitle))
      && (ExtractText(p.projectTitle) != "" && FirstFile(p.introImage) == "" ==>
            ProcessPage(page) == Skipped(MissingIntroImage(ExtractText(p.projectTitle))))
      && (ExtractText(p.projectTitle) != "" && FirstFile(p.introImage) != "" && !p.publish ==>
            ProcessPage(page) == Skipped(NotPublished(ExtractText(p.projectTitle))))
  {
  }

  datatype Processed = Processed(projects: seq<CaseProject>, warnings: seq<Warning>)

  /**
    The loop over all pages: included records and warnings, each in page order. Written as a
    right fold; the first page's outcome goes in front of the outcomes of the rest.
   */
  function ProcessPages(pages: seq<RawPage>): (r: Processed)
    ensures |r.projects| + |r.warnings| == |pages|
  {
    if pages == [] then Processed([], [])
    else
      var rest := ProcessPages(pages[1..]);
      match ProcessPage(pages[0])
      case Included(project) => Processed([project] + rest.projects, rest.warnings)
      case Skipped(warning) => Processed(rest.projects, [warning] + rest.warnings)
  }

  function NotPublishable(page: RawPage): bool { !Publishable(page) }

  /**
    The loop agrees with filter-then-project: the records are those of the publishable pages
    and the warnings those of the others, each in page order. A skipped page never stops the
    pages after it.
   */
  lemma {:induction false} ProcessPagesIsGate(pages: seq<RawPage>)
    ensures ProcessPages(pages).projects == Seqs.Map(RecordOf, Seqs.Filter(Publishable, pages))
    ensures ProcessPages(pages).warnings == Seqs.Map(WarningOf, Seqs.Filter(NotPublishable, pages))
  {
    if pages != [] {
      ProcessPagesIsGate(pages[1..]);
      if Publishable(pages[0]) {
        ProcessPageIncluded(pages[0]);
      } else {
        ProcessPageSkipped(pages[0]);
      }
    }
  }

  // ---------------------------------------------------------------------------------------
  // Envelope

  datatype FetchError =
    | NoAuthenticationToken
    | NoDatabaseId
    | FetchFailed(message: string)

  datatype Metadata = Metadata(count: nat, errors: seq<FetchError>, warnings: seq<Warning>)

  datatype FetchResult = FetchResult(success: bool, data: seq<CaseProject>, metadata: Metadata)

  datatype QueryOutcome = QueryFailed(message: string) | QueryResults(pages: seq<RawPage>)

  /** The database query, given the token and the database id. */
  type Query = (string, string) -> QueryOutcome

  const TokenAliases: seq<string> := ["CASES_TOKEN", "NOTION_TOKEN", "PERSONAL_TOKEN"]
  const DatabaseIdAliases: seq<string> := ["CASES_DATABASE_ID", "NOTION_DATABASE_ID"]
  const DefaultDatabaseId: string := "20855dd5594d805f94d8d0f5686b292d"

  /** The database id queried: the configured one, or the built-in default, without hyphens. */
  function DatabaseId(env: Env): string {
    CleanDatabaseId(FirstSet(env, DatabaseIdAliases).GetOr(DefaultDatabaseId))
  }

  /** The pages the query returns, when the fetcher gets as far as a successful query. */
  function QueriedPages(env: Env, query: Query): seq<RawPage> {
    var token := FirstSet(env, TokenAliases);
    if token.Some? && DatabaseId(env) != "" && query(token.value, DatabaseId(env)).QueryResults? then
      query(token.value, DatabaseId(env)).pages
    else []
  }

  function Failure(e: FetchError): FetchResult {
    FetchResult(false, [], Metadata(0, [e], []))
  }

  /** `getCaseProjects`. */
  function GetCaseProjects(env: Env, query: Query): (r: FetchResult)
    ensures FirstSet(env, TokenAliases).None? ==> r == Failure(NoAuthenticationToken)
    ensures FirstSet(env, TokenAliases).Some? && DatabaseId(env) == "" ==> r == Failure(NoDatabaseId)
    ensures FirstSet(env, TokenAliases).Some? && DatabaseId(env) != "" && query(FirstSet(env, TokenAliases).value, DatabaseId(env)).QueryFailed?
            ==> r == Failure(FetchFailed(query(FirstSet(env, TokenAliases).value, DatabaseId(env)).message))
    ensures r.success <==> && FirstSet(env, TokenAliases).Some?
                           && DatabaseId(env) != ""
                           && query(FirstSet(env, TokenAliases).value, DatabaseId(env)).QueryResults?
    ensures !r.success ==> r.data == [] && |r.metadata.errors| == 1 && r.metadata.count == 0
    ensures r.success ==>
      var pages := QueriedPages(env, query);
      && r.data == Seqs.Map(RecordOf, Seqs.Filter(Publishable, pages))
      && r.metadata.count == |r.data|
      && r.metadata.errors == []
      && r.metadata.warnings == Seqs.Map(WarningOf, Seqs.Filter(NotPublishable, pages))
      && |r.data| + |r.metadata.warnings| == |pages|
  {
    var token := FirstSet(env, TokenAliases);
    var databaseId := DatabaseId(env);
    if token.None? then Failure(NoAuthenticationToken)
    else if databaseId == "" then Failure(NoDatabaseId)
    else
      match query(token.value, databaseId)
      case QueryFailed(message) => Failure(FetchFailed(message))
      case QueryResults(pages) =>
        var processed := ProcessPages(pages);
        ProcessPagesIsGate(pages);
        FetchResult(true, processed.projects, Metadata(|processed.projects|, [], processed.warnings))
  }

  /**
    What a lookup by slug should answer on `projects`: nothing iff no record has the slug,
    and otherwise the first record, in list order, that has it.
   */
  predicate FirstWithSlug(projects: seq<CaseProject>, slug: string, r: Option<CaseProject>) {
    && (r.None? <==> forall i :: 0 <= i < |projects| ==> projects[i].slug != slug)
    && (r.Some? ==> exists i :: 0 <= i < |projects| && projects[i] == r.value && r.value.slug == slug
                                && forall j :: 0 <= j < i ==> projects[j].slug != slug)
  }

  /** `data.find(p => p.slug === slug)`. */
  function FindBySlug(projects: seq<CaseProject>, slug: string): (r: Option<CaseProject>)
    ensures FirstWithSlug(projects, slug, r)
  {
    if projects == [] then None
    else if projects[0].slug == slug then Some(projects[0])
    else
      var r := FindBySlug(projects[1..], slug);
      assert forall i :: 1 <= i < |projects| ==> projects[i] == projects[1..][i - 1];
      if r.Some? then
        var i :| 0 <= i < |projects[1..]| && projects[1..][i] == r.value && r.value.slug == slug
                 && forall j :: 0 <= j < i ==> projects[1..][j].slug != slug;
        assert projects[i + 1] == r.value;
        r
      else r
  }

  /**
    `getCaseBySlug`: the first fetched record, in list order, whose slug matches; nothing
    when the fetch failed or found no match.
   */
  function GetCaseBySlug(env: Env, query: Query, slug: string): (r: Option<CaseProject>)
    ensures !GetCaseProjects(env, query).success ==> r.None?
    ensures FirstWithSlug(GetCaseProjects(env, query).data, slug, r)
  {
    var result := GetCaseProjects(env, query);
    if !result.success || |result.data| == 0 then None
    else FindBySlug(result.data, slug)
  }
}

=== FILE: personal_projects.dfy ===
/**
  The personal projects page (`app/personal-projects/page.tsx`): its built-in project list,
  the priority order, the column split, and the status badge and image click of a card.
 */
module PersonalProjects {
  import opened Wrappers
  import Seqs
  import Strings
  import Grid

  /** A personal project. `status` is one of three known values, but any string is handled. */
  datatype PersonalProject = PersonalProject(
    id: string,
    title: string,
    description: Option<string>,
    tags: seq<string>,
    image: Option<string>,
    link: Option<string>,
    status: string,
    priority: int)

  // ---------------------------------------------------------------------------------------
  // Priority order

  predicate SortedByPriority(s: seq<PersonalProject>) {
    forall i, j :: 0 <= i < j < |s| ==> s[i].priority <= s[j].priority
  }

  /** Places `x` before the first project whose priority is not below its own. */
  function InsertByPriority(x: PersonalProject, s: seq<PersonalProject>): (r: seq<PersonalProject>)
    requires SortedByPriority(s)
    ensures SortedByPriority(r)
    ensures multiset(r) == multiset(s) + multiset{x}
  {
    if s == [] || x.priority <= s[0].priority then [x] + s
    else
      var rest := InsertByPriority(x, s[1..]);
      HeadBelowRest(s, x, rest);
      assert s == [s[0]] + s[1..];
      [s[0]] + rest
  }

  /** The head of a sorted list stays below everything inserted after it. */
  lemma HeadBelowRest(s: seq<PersonalProject>, x: PersonalProject, rest: seq<PersonalProject>)
    requires s != [] && SortedByPriority(s) && s[0].priority < x.priority
    requires SortedByPriority(rest) && multiset(rest) == multiset(s[1..]) + multiset{x}
    ensures SortedByPriority([s[0]] + rest)
  {
    forall y | y in rest ensures s[0].priority <= y.priority {
      assert y in multiset(rest);
      if y != x {
        assert y in multiset(s[1..]);
      }
    }
    var r := [s[0]] + rest;
    forall i, j | 0 <= i < j < |r| ensures r[i].priority <= r[j].priority {
      if i == 0 {
        assert r[j] == rest[j - 1] && rest[j - 1] in rest;
      } else {
        assert r[i] == rest[i - 1] && r[j] == rest[j - 1];
      }
    }
  }

  /**
    `sort((a, b) => a.priority - b.priority)`: ascending priority. The sort is stable, so
    projects of equal priority keep their order.
   */
  function SortByPriority(s: seq<PersonalProject>): (r: seq<PersonalProject>)
    ensures SortedByPriority(r)
    ensures multiset(r) == multiset(s)
  {
    if s == [] then []
    else
      assert s == [s[0]] + s[1..];
      InsertByPriority(s[0], SortByPriority(s[1..]))
  }

  function WithPriority(p: int): PersonalProject -> bool {
    (x: PersonalProject) => x.priority == p
  }

  /** Inserting `x` keeps, for every priority, the order it would have in front of `s`. */
  lemma {:induction false} InsertStable(x: PersonalProject, s: seq<PersonalProject>, p: int)
    requires SortedByPriority(s)
    ensures Seqs.Filter(WithPriority(p), InsertByPriority(x, s)) == Seqs.Filter(WithPriority(p), [x] + s)
  {
    if s != [] && x.priority > s[0].priority {
      var q := WithPriority(p);
      var s0, tail := s[0], s[1..];
      calc {
        Seqs.Filter(q, InsertByPriority(x, s));
        Seqs.Filter(q, [s0] + InsertByPriority(x, tail));
        { Seqs.FilterCons(q, s0, InsertByPriority(x, tail)); }
        (if q(s0) then [s0] else []) + Seqs.Filter(q, InsertByPriority(x, tail));
        { InsertStable(x, tail, p); }
        (if q(s0) then [s0] else []) + Seqs.Filter(q, [x] + tail);
        { Seqs.FilterCons(q, s0, [x] + tail); }
        Seqs.Filter(q, [s0] + ([x] + tail));
        { Seqs.FilterSwap(q, s0, x, tail); }
        Seqs.Filter(q, [x] + ([s0] + tail));
        { assert s == [s0] + tail; }
        Seqs.Filter(q, [x] + s);
      }
    }
  }

  /** Stability: for every priority, the projects of that priority appear in their input order. */
  lemma {:induction false} SortStable(s: seq<PersonalProject>, p: int)
    ensures Seqs.Filter(WithPriority(p), SortByPriority(s)) == Seqs.Filter(WithPriority(p), s)
  {
    if s != [] {
      var q := WithPriority(p);
      SortStable(s[1..], p);
      InsertStable(s[0], SortByPriority(s[1..]), p);
      Seqs.FilterConcat(q, [s[0]], SortByPriority(s[1..]));
      Seqs.FilterConcat(q, [s[0]], s[1..]);
      assert s == [s[0]] + s[1..];
    }
  }

  /** A list already in priority order is left as it is. */
  lemma {:induction false} SortSortedIsIdentity(s: seq<PersonalProject>)
    requires SortedByPriority(s)
    ensures SortByPriority(s) == s
  {
    if s != [] {
      SortSortedIsIdentity(s[1..]);
      assert s == [s[0]] + s[1..];
    }
  }

  // ---------------------------------------------------------------------------------------
  // The built-in list

  const Placeholder: string := "/placeholder.svg"

  // The entries of `mockPersonalProjects`, in the order written.
  const GenerativeArt: PersonalProject :=
    PersonalProject("1", "Generative Art Collection",
      Some("A series of algorithmic art pieces exploring color theory and geometric patterns."),
      ["Creative Coding", "Art", "Javascript"], Some("/placeholder.svg?height=300&width=400"),
      Some("https://example.com/art-collection"), "completed", 1)

  const PhotographyPortfolio: PersonalProject :=
    PersonalProject("2", "Photography Portfolio",
      Some("Personal photography work focusing on urban landscapes and street photography."),
      ["Photography", "Portfolio"], Some("/placeholder.svg?height=400&width=300"),
      None, "in-progress", 2)

  const DataVisualization: PersonalProject :=
    PersonalProject("3", "Interactive Data Visualization",
      Some("Exploring climate data through interactive web-based visualizations."),
      ["Data Viz", "D3.js", "Climate"], Some("/placeholder.svg?height=350&width=400"),
      None, "coming-soon", 3)

  const ExperimentalTypography: PersonalProject :=
    PersonalProject("4", "Experimental Typography",
      Some("Pushing boundaries in digital typography and letterform design."),
      ["Typography", "Design", "Experimental"], Some("/placeholder.svg?height=320&width=400"),
      None, "completed", 4)

  const SoundVisualization: PersonalProject :=
    PersonalProject("5", "Sound Visualization",
      Some("Real-time audio visualization using WebGL and modern web technologies."),
      ["WebGL", "Audio", "Creative Coding"], Some("/placeholder.svg?height=380&width=350"),
      None, "in-progress", 5)

  const WebExperiments3D: PersonalProject :=
    PersonalProject("6", "3D Web Experiments",
      Some("Exploring three-dimensional web experiences with Three.js."),
      ["Three.js", "3D", "WebGL"], Some("/placeholder.svg?height=300&width=380"),
      None, "coming-soon", 6)

  /** `mockPersonalProjects`. */
  const MockPersonalProjects: seq<PersonalProject> :=
    [GenerativeArt, PhotographyPortfolio, DataVisualization, ExperimentalTypography, SoundVisualization, WebExperiments3D]

  /** `fetchProjects`: the built-in list in priority order. */
  function LoadProjects(): (r: seq<PersonalProject>)
    ensures SortedByPriority(r)
    ensures multiset(r) == multiset(MockPersonalProjects)
  {
    SortByPriority(MockPersonalProjects)
  }

  /** The built-in list is already in priority order, so the page shows it as written. */
  lemma LoadedAsWritten()
    ensures LoadProjects() == MockPersonalProjects
  {
    NumberedIsSorted(MockPersonalProjects);
    SortSortedIsIdentity(MockPersonalProjects);
  }

  /** Projects numbered `1, 2, 3, …` in list order are in priority order. */
  lemma NumberedIsSorted(s: seq<PersonalProject>)
    requires |s| == 6
    requires s[0].priority == 1 && s[1].priority == 2 && s[2].priority == 3
    requires s[3].priority == 4 && s[4].priority == 5 && s[5].priority == 6
    ensures SortedByPriority(s)
  {
    assert forall i :: 0 <= i < |s| ==> s[i].priority == i + 1;
  }

  // ---------------------------------------------------------------------------------------
  // Columns

  /** `getColumnProjects(columnIndex, totalColumns)`: the projects at `index % totalColumns === columnIndex`. */
  function GetColumnProjects(projects: seq<PersonalProject>, columnIndex: nat, totalColumns: nat): (r: seq<PersonalProject>)
    ensures Seqs.Subsequence(r, projects)
    ensures totalColumns == 0 || columnIndex >= totalColumns ==> r == []
  {
    Seqs.ColumnSubsequence(projects, columnIndex, totalColumns);
    Seqs.Column(projects, columnIndex, totalColumns)
  }

  /** The page's grids are the shared layouts of the loaded list. */
  lemma ColumnsAreGrid(projects: seq<PersonalProject>)
    ensures Grid.Arrange(projects).desktop == [GetColumnProjects(projects, 0, 3), GetColumnProjects(projects, 1, 3), GetColumnProjects(projects, 2, 3)]
    ensures Grid.Arrange(projects).tablet == [GetColumnProjects(projects, 0, 2), GetColumnProjects(projects, 1, 2)]
  {
  }

  // ---------------------------------------------------------------------------------------
  // Cards

  /** The colour family of a status badge. */
  function StatusHue(status: string): string {
    if status == "completed" then "green"
    else if status == "in-progress" then "blue"
    else if status == "coming-soon" then "yellow"
    else "gray"
  }

  /** The badge classes of a colour family: a light background with dark text of the same hue. */
  function BadgeClasses(hue: string): string {
    "bg-" + hue + "-100 text-" + hue + "-800"
  }

  // The four badge class strings the page writes out, one lemma each.

  lemma GreenBadge()
    ensures BadgeClasses("green") == "bg-green-100 text-green-800"
  {
  }

  lemma BlueBadge()
    ensures BadgeClasses("blue") == "bg-blue-100 text-blue-800"
  {
  }

  lemma YellowBadge()
    ensures BadgeClasses("yellow") == "bg-yellow-100 text-yellow-800"
  {
  }

  lemma GrayBadge()
    ensures BadgeClasses("gray") == "bg-gray-100 text-gray-800"
  {
  }

  /** `getStatusColor(status)`. */
  function GetStatusColor(status: string): (r: string)
    ensures r == BadgeClasses(StatusHue(status))
  {
    GreenBadge();
    BlueBadge();
    YellowBadge();
    GrayBadge();
    match status
    case "completed" => "bg-green-100 text-green-800"
    case "in-progress" => "bg-blue-100 text-blue-800"
    case "coming-soon" => "bg-yellow-100 text-yellow-800"
    case _ => "bg-gray-100 text-gray-800"
  }

  /** `getStatusText(status)`. */
  function GetStatusText(status: string): (r: string)
    ensures forall i :: 0 <= i < |r| ==> !Strings.IsLowerAscii(r[i])
  {
    Strings.ToUpperIdempotent(status);
    match status
    case "completed" => "COMPLETED"
    case "in-progress" => "IN PROGRESS"
    case "coming-soon" => "COMING SOON"
    case _ => Strings.ToUpper(status)
  }

  /**
    The badge text is the status upper-cased, except that the two hyphenated statuses read
    with a space instead of the hyphen.
   */
  lemma StatusTextIsUpperCase(status: string)
    ensures status != "in-progress" && status != "coming-soon" ==> GetStatusText(status) == Strings.ToUpper(status)
    ensures status == "in-progress" || status == "coming-soon" ==>
      |GetStatusText(status)| == |status|
      && forall i :: 0 <= i < |status| ==>
           GetStatusText(status)[i] == if status[i] == '-' then ' ' else Strings.ToUpper(status)[i]
  {
    if status == "completed" {
      assert Strings.ToUpper(status) == "COMPLETED";
    }
  }

  /** `onImageClick`: the link to open, if any. */
  function OnImageClick(project: PersonalProject): (target: Option<string>)
    ensures target.Some? <==> Truthy(project.link) && project.status == "completed"
    ensures target.Some? ==> target.value == project.link.value
  {
    if Truthy(project.link) && project.status == "completed" then project.link else None
  }

  /** Of the built-in projects only the first opens a link when its image is clicked. */
  lemma OnlyFirstMockOpens()
    ensures forall i :: 0 <= i < |MockPersonalProjects| ==> (OnImageClick(MockPersonalProjects[i]).Some? <==> i == 0)
  {
  }

  /**
    A click opens a link only on a card whose badge reads `COMPLETED` in green, and every
    green badge with a link opens it. (A status spelled `COMPLETED` also reads `COMPLETED`,
    in a gray badge, and does not open.)
   */
  lemma OpensOnlyUnderGreenBadge(project: PersonalProject)
    ensures OnImageClick(project).Some? ==>
      GetStatusText(project.status) == "COMPLETED" && GetStatusColor(project.status) == BadgeClasses("green")
    ensures Truthy(project.link) && GetStatusColor(project.status) == BadgeClasses("green") ==> OnImageClick(project).Some?
  {
    if GetStatusColor(project.status) == BadgeClasses("green") {
      assert StatusHue(project.status) == "green" by {
        var h := StatusHue(project.status);
        assert BadgeClasses(h)[3] == h[0];
        assert BadgeClasses(h)[4] == h[1];
      }
    }
  }
}

=== FILE: seqs.dfy ===
/**
  Order-preserving sequence operations shared by the pages and the fetcher:
  `Array.prototype.filter`, index-modulo column splits and first-seen dedupe.
 */
module Seqs {

  /** `xs` can be obtained from `ys` by deleting elements: order is kept. */
  ghost predicate Subsequence<T>(xs: seq<T>, ys: seq<T>)
    decreases |ys|
  {
    if xs == [] then true
    else if ys == [] then false
    else (xs[0] == ys[0] && Subsequence(xs[1..], ys[1..])) || Subsequence(xs, ys[1..])
  }

  predicate NoDup<T(==)>(s: seq<T>) {
    forall i, j :: 0 <= i < j < |s| ==> s[i] != s[j]
  }

  lemma SubsequenceRefl<T>(s: seq<T>)
    ensures Subsequence(s, s)
  {
    if s != [] {
      SubsequenceRefl(s[1..]);
    }
  }

  lemma {:induction false} SubsequenceEmpty<T>(ys: seq<T>)
    ensures Subsequence([], ys)
  {
  }

  /** Concatenating two subsequences gives a subsequence of the concatenation. */
  lemma {:induction false} SubsequenceConcat<T>(a: seq<T>, b: seq<T>, c: seq<T>, d: seq<T>)
    requires Subsequence(a, b) && Subsequence(c, d)
    ensures Subsequence(a + c, b + d)
    decreases |b|
  {
    if a == [] {
      SubsequenceSuffix(c, d, b);
      assert a + c == c;
    } else {
      assert b != [];
      if a[0] == b[0] && Subsequence(a[1..], b[1..]) {
        SubsequenceConcat(a[1..], b[1..], c, d);
        assert (a + c)[1..] == a[1..] + c;
        assert (b + d)[1..] == b[1..] + d;
      } else {
        SubsequenceConcat(a, b[1..], c, d);
        assert (b + d)[1..] == b[1..] + d;
      }
    }
  }

  /** Prepending extra elements to the larger sequence keeps a subsequence. */
  lemma {:induction false} SubsequenceSuffix<T>(c: seq<T>, d: seq<T>, b: seq<T>)
    requires Subsequence(c, d)
    ensures Subsequence(c, b + d)
    decreases |b|
  {
    if b == [] {
      assert b + d == d;
    } else {
      SubsequenceSuffix(c, d, b[1..]);
      assert (b + d)[1..] == b[1..] + d;
      if c != [] {
        assert Subsequence(c, (b + d)[1..]);
      }
    }
  }

  lemma {:induction false} SubsequenceTrans<T>(a: seq<T>, b: seq<T>, c: seq<T>)
    requires Subsequence(a, b) && Subsequence(b, c)
    ensures Subsequence(a, c)
    decreases |c|
  {
    if a != [] {
      assert b != [] && c != [];
      if b[0] == c[0] && Subsequence(b[1..], c[1..]) {
        if a[0] == b[0] && Subsequence(a[1..], b[1..]) {
          SubsequenceTrans(a[1..], b[1..], c[1..]);
        } else {
          SubsequenceTrans(a, b[1..], c[1..]);
        }
      } else {
        SubsequenceTrans(a, b, c[1..]);
      }
    }
  }

  /** Every element of a subsequence occurs in the larger sequence. */
  lemma {:induction false} SubsequenceElements<T>(a: seq<T>, b: seq<T>)
    requires Subsequence(a, b)
    ensures forall x :: x in a ==> x in b
    decreases |b|
  {
    if a != [] {
      if a[0] == b[0] && Subsequence(a[1..], b[1..]) {
        SubsequenceElements(a[1..], b[1..]);
        assert forall x :: x in a ==> x == a[0] || x in a[1..];
      } else {
        SubsequenceElements(a, b[1..]);
      }
    }
  }

  /** A prefix is a subsequence. */
  lemma PrefixSubsequence<T>(s: seq<T>, n: nat)
    requires n <= |s|
    ensures Subsequence(s[..n], s)
  {
    SubsequenceRefl(s[..n]);
    SubsequenceSuffix(s[..n], s[..n], []);
    SubsequenceEmpty(s[n..]);
    SubsequenceConcat(s[..n], s[..n], [], s[n..]);
    assert s[..n] + s[n..] == s;
    assert s[..n] + [] == s[..n];
  }

  /** `s.filter(p)`: the elements satisfying `p`, in their original order and multiplicity. */
  function Filter<T(!new)>(p: T -> bool, s: seq<T>): (r: seq<T>)
    ensures |r| <= |s|
    ensures forall i :: 0 <= i < |r| ==> p(r[i])
    ensures forall x :: x in r <==> x in s && p(x)
  {
    if s == [] then []
    else
      var rest := Filter(p, s[1..]);
      assert forall x :: x in s <==> x == s[0] || x in s[1..];
      if p(s[0]) then [s[0]] + rest else rest
  }

  /** Filtering a list without duplicates gives a list without duplicates. */
  lemma {:induction false} FilterNoDup<T(!new)>(p: T -> bool, s: seq<T>)
    ensures NoDup(s) ==> NoDup(Filter(p, s))
  {
    if s != [] && NoDup(s) {
      assert NoDup(s[1..]) by {
        assert forall i :: 0 <= i < |s[1..]| ==> s[1..][i] == s[i + 1];
      }
      FilterNoDup(p, s[1..]);
      assert s[0] !in s[1..] by {
        assert forall i :: 0 <= i < |s[1..]| ==> s[1..][i] == s[i + 1];
      }
    }
  }

  /**
    `Filter` keeps order and multiplicity: its result is a subsequence of `s` holding every
    element that satisfies `p` exactly as often as `s` does.
   */
  lemma {:induction false} FilterSubsequence<T(!new)>(p: T -> bool, s: seq<T>)
    ensures Subsequence(Filter(p, s), s)
    ensures forall x :: multiset(Filter(p, s))[x] == if p(x) then multiset(s)[x] else 0
  {
    if s != [] {
      var rest := Filter(p, s[1..]);
      FilterSubsequence(p, s[1..]);
      assert s == [s[0]] + s[1..];
      if p(s[0]) {
        assert ([s[0]] + rest)[1..] == rest;
      }
    }
  }

  /** `s.map(f)`. */
  function Map<T, U>(f: T -> U, s: seq<T>): (r: seq<U>)
    ensures |r| == |s|
    ensures forall i :: 0 <= i < |s| ==> r[i] == f(s[i])
  {
    if s == [] then [] else [f(s[0])] + Map(f, s[1..])
  }

  lemma {:induction false} MapConcat<T, U>(f: T -> U, a: seq<T>, b: seq<T>)
    ensures Map(f, a + b) == Map(f, a) + Map(f, b)
  {
  }

  /**
    `Filter(p, s)` is non-empty exactly when some element satisfies `p`, and then it starts
    with the first such element (what `filter(...)[0]` reads).
   */
  lemma {:induction false} FilterHead<T(!new)>(p: T -> bool, s: seq<T>)
    ensures Filter(p, s) != [] <==> exists i :: 0 <= i < |s| && p(s[i])
    ensures Filter(p, s) != [] ==>
      exists i :: 0 <= i < |s| && p(s[i]) && Filter(p, s)[0] == s[i] && forall j :: 0 <= j < i ==> !p(s[j])
  {
    if s != [] {
      if !p(s[0]) {
        FilterHead(p, s[1..]);
        if Filter(p, s) != [] {
          var i :| 0 <= i < |s[1..]| && p(s[1..][i]) && Filter(p, s[1..])[0] == s[1..][i]
                   && forall j :: 0 <= j < i ==> !p(s[1..][j]);
          assert forall j :: 1 <= j < i + 1 ==> s[j] == s[1..][j - 1];
          assert p(s[i + 1]) && Filter(p, s)[0] == s[i + 1];
        }
        assert forall i :: 1 <= i < |s| ==> s[i] == s[1..][i - 1];
      }
    }
  }

  /** Filtering a one-element list. */
  lemma FilterCons<T(!new)>(p: T -> bool, a: T, t: seq<T>)
    ensures Filter(p, [a] + t) == (if p(a) then [a] else []) + Filter(p, t)
  {
    assert ([a] + t)[0] == a && ([a] + t)[1..] == t;
  }

  /** Two neighbours of which at most one is kept can be swapped without changing the filter. */
  lemma FilterSwap<T(!new)>(p: T -> bool, a: T, b: T, t: seq<T>)
    requires !(p(a) && p(b))
    ensures Filter(p, [a] + ([b] + t)) == Filter(p, [b] + ([a] + t))
  {
    FilterCons(p, a, [b] + t);
    FilterCons(p, b, t);
    FilterCons(p, b, [a] + t);
    FilterCons(p, a, t);
  }

  lemma FilterSingleton<T(!new)>(p: T -> bool, x: T)
    ensures Filter(p, [x]) == if p(x) then [x] else []
  {
    assert [x][1..] == [];
  }

  /** Filtering after appending one element. */
  lemma FilterSnoc<T(!new)>(p: T -> bool, s: seq<T>, x: T)
    ensures Filter(p, s + [x]) == if p(x) then Filter(p, s) + [x] else Filter(p, s)
  {
    FilterConcat(p, s, [x]);
    FilterSingleton(p, x);
  }

  lemma {:induction false} FilterAll<T(!new)>(p: T -> bool, s: seq<T>)
    requires forall i :: 0 <= i < |s| ==> p(s[i])
    ensures Filter(p, s) == s
  {
    if s != [] {
      FilterAll(p, s[1..]);
    }
  }

  lemma {:induction false} FilterConcat<T(!new)>(p: T -> bool, a: seq<T>, b: seq<T>)
    ensures Filter(p, a + b) == Filter(p, a) + Filter(p, b)
  {
    if a == [] {
      assert a + b == b;
    } else {
      var t := a[1..];
      var h := if p(a[0]) then [a[0]] else [];
      calc {
        Filter(p, a + b);
        { assert a + b == [a[0]] + (t + b); }
        Filter(p, [a[0]] + (t + b));
        { FilterCons(p, a[0], t + b); }
        h + Filter(p, t + b);
        { FilterConcat(p, t, b); }
        h + (Filter(p, t) + Filter(p, b));
        (h + Filter(p, t)) + Filter(p, b);
        { assert a == [a[0]] + t; FilterCons(p, a[0], t); }
        Filter(p, a) + Filter(p, b);
      }
    }
  }

  /**
    Column `k` of an `n`-column layout: the elements whose index `i` has `i % n == k`,
    in order. `n == 0` selects nothing, as `index % 0` is `NaN` in JavaScript.
   */
  function Column<T>(s: seq<T>, k: nat, n: nat): (r: seq<T>)
    ensures |r| <= |s|
    ensures n == 0 || k >= n ==> r == []
    decreases |s|
  {
    if s == [] then []
    else Column(s[..|s| - 1], k, n) + (if n > 0 && (|s| - 1) % n == k then [s[|s| - 1]] else [])
  }

  lemma {:induction false} ColumnSubsequence<T>(s: seq<T>, k: nat, n: nat)
    ensures Subsequence(Column(s, k, n), s)
    decreases |s|
  {
    if s == [] {
    } else {
      var m := |s| - 1;
      ColumnSubsequence(s[..m], k, n);
      assert s == s[..m] + [s[m]];
      if n > 0 && m % n == k {
        SubsequenceRefl([s[m]]);
        SubsequenceConcat(Column(s[..m], k, n), s[..m], [s[m]], [s[m]]);
      } else {
        SubsequenceEmpty([s[m]]);
        SubsequenceConcat(Column(s[..m], k, n), s[..m], [], [s[m]]);
        assert Column(s[..m], k, n) + [] == Column(s[..m], k, n);
      }
    }
  }

  lemma MulMonotone(a: int, b: int, n: int)
    requires n > 0 && a * n < b * n
    ensures a < b
  {
    assert a * n - b * n == (a - b) * n;
  }

  lemma MulLe(a: nat, b: nat, n: nat)
    requires a <= b
    ensures a * n <= b * n
  {
    assert b * n - a * n == (b - a) * n;
  }

  lemma MulMonotoneLe(a: int, b: int, n: int)
    requires n > 0 && a * n <= b * n
    ensures a <= b
  {
    assert a * n - b * n == (a - b) * n;
  }

  /**
    If `m` is past the last index `k + (c - 1) * n` of a residue class and no further than
    `k + c * n`, then `m` is in the class exactly when it is that next index.
   */
  lemma NextInClass(m: nat, k: nat, n: nat, c: nat)
    requires k < n && m <= k + c * n
    requires c > 0 ==> k + (c - 1) * n < m
    ensures m % n == k <==> m == k + c * n
  {
    if m % n == k {
      InClassIsNext(m, k, n, c);
    }
    if m == k + c * n {
      ModOfClassMember(k, c, n);
    }
  }

  lemma InClassIsNext(m: nat, k: nat, n: nat, c: nat)
    requires k < n && m <= k + c * n
    requires c > 0 ==> k + (c - 1) * n < m
    requires m % n == k
    ensures m == k + c * n
  {
    var q := m / n;
    assert m == q * n + k;
    assert q * n <= c * n;
    MulMonotoneLe(q, c, n);
    if c > 0 {
      assert (c - 1) * n < q * n;
      MulMonotone(c - 1, q, n);
    }
  }

  lemma ModOfClassMember(k: nat, c: nat, n: nat)
    requires k < n
    ensures (k + c * n) % n == k
  {
    var m := k + c * n;
    var q, r := m / n, m % n;
    assert m == q * n + r && 0 <= r < n;
    assert (c - q) * n == r - k by {
      assert c * n - q * n == (c - q) * n;
    }
    assert (c - q) * n < 1 * n;
    MulMonotone(c - q, 1, n);
    assert (q - c) * n == k - r;
    assert (q - c) * n < 1 * n;
    MulMonotone(q - c, 1, n);
  }

  /**
    Column `k` holds exactly `s[k], s[k + n], s[k + 2n], ...`: position `j` of the column is
    index `k + j * n` of `s`, and no index of that form is left out.
   */
  lemma {:induction false} ColumnPositions<T>(s: seq<T>, k: nat, n: nat)
    requires k < n
    ensures forall j :: 0 <= j < |Column(s, k, n)| ==> k + j * n < |s| && Column(s, k, n)[j] == s[k + j * n]
    ensures |s| <= k + |Column(s, k, n)| * n
    decreases |s|
  {
    if s != [] {
      var m := |s| - 1;
      var c := Column(s[..m], k, n);
      ColumnPositions(s[..m], k, n);
      PrefixPositions(s, m, c, k, n);
      NextInClass(m, k, n, |c|);
      if m % n == k {
        assert Column(s, k, n) == c + [s[m]];
        AppendPositions(s, c, k, n);
      } else {
        assert Column(s, k, n) == c;
      }
    }
  }

  /** Moves the facts `ColumnPositions` gives about the prefix `s[..m]` over to `s`. */
  lemma PrefixPositions<T>(s: seq<T>, m: nat, c: seq<T>, k: nat, n: nat)
    requires m <= |s|
    requires forall j :: 0 <= j < |c| ==> k + j * n < m && c[j] == s[..m][k + j * n]
    ensures forall j :: 0 <= j < |c| ==> k + j * n < m && c[j] == s[k + j * n]
    ensures |c| > 0 ==> k + (|c| - 1) * n < m
  {
    if |c| > 0 {
      assert k + (|c| - 1) * n < m;
    }
  }

  /** Appending the element at the next index of the class extends the column's positions by one. */
  lemma AppendPositions<T>(s: seq<T>, c: seq<T>, k: nat, n: nat)
    requires s != [] && n > 0 && |s| - 1 == k + |c| * n
    requires forall j :: 0 <= j < |c| ==> c[j] == s[k + j * n]
    ensures forall j :: 0 <= j < |c| + 1 ==> k + j * n < |s| && (c + [s[|s| - 1]])[j] == s[k + j * n]
    ensures |s| <= k + (|c| + 1) * n
  {
    var r := c + [s[|s| - 1]];
    forall j | 0 <= j < |c| + 1 ensures k + j * n < |s| && r[j] == s[k + j * n] {
      if j < |c| {
        MulLe(j, |c|, n);
      }
    }
    assert (|c| + 1) * n == |c| * n + n;
  }

  /** Every element of `s` sits in column `i % n`, at position `i / n`. */
  lemma ColumnsCoverAll<T>(s: seq<T>, n: nat)
    requires n > 0
    ensures forall i :: 0 <= i < |s| ==> i / n < |Column(s, i % n, n)| && Column(s, i % n, n)[i / n] == s[i]
  {
    forall i | 0 <= i < |s|
      ensures i / n < |Column(s, i % n, n)| && Column(s, i % n, n)[i / n] == s[i]
    {
      CoversOne(s, n, i, i % n, i / n);
    }
  }

  lemma CoversOne<T>(s: seq<T>, n: nat, i: nat, k: nat, q: nat)
    requires n > 0 && i < |s| && k < n && i == k + q * n
    ensures q < |Column(s, k, n)| && Column(s, k, n)[q] == s[i]
  {
    ColumnPositions(s, k, n);
    var c := Column(s, k, n);
    assert q * n < |c| * n;
    MulMonotone(q, |c|, n);
  }

  /**
    Columns are balanced: for `k1 < k2 < n`, column `k2` is no longer than column `k1`
    and at most one shorter.
   */
  lemma ColumnSizes<T>(s: seq<T>, k1: nat, k2: nat, n: nat)
    requires k1 < k2 < n
    ensures |Column(s, k2, n)| <= |Column(s, k1, n)| <= |Column(s, k2, n)| + 1
  {
    var c1, c2 := Column(s, k1, n), Column(s, k2, n);
    ColumnPositions(s, k1, n);
    ColumnPositions(s, k2, n);
    if |c2| > 0 {
      assert k2 + (|c2| - 1) * n < |s| <= k1 + |c1| * n;
      assert (|c2| - 1) * n < |c1| * n;
      MulMonotone(|c2| - 1, |c1|, n);
    }
    if |c1| > 0 {
      assert k1 + (|c1| - 1) * n < |s| <= k2 + |c2| * n;
      assert (|c1| - 1) * n < (|c2| + 1) * n;
      MulMonotone(|c1| - 1, |c2| + 1, n);
    }
  }

  /** Total length of columns `0 .. k - 1`. */
  function ColumnsLength<T>(s: seq<T>, k: nat, n: nat): nat {
    if k == 0 then 0 else ColumnsLength(s, k - 1, n) + |Column(s, k - 1, n)|
  }

  lemma {:induction false} ColumnsLengthStep<T>(s: seq<T>, k: nat, n: nat)
    requires s != [] && n > 0 && k <= n
    ensures ColumnsLength(s, k, n) == ColumnsLength(s[..|s| - 1], k, n) + (if (|s| - 1) % n < k then 1 else 0)
  {
    if k > 0 {
      ColumnsLengthStep(s, k - 1, n);
    }
  }

  /** The `n` columns together are exactly as long as `s`: with `ColumnsCoverAll`, they partition it. */
  lemma {:induction false} ColumnsPartition<T>(s: seq<T>, n: nat)
    requires n > 0
    ensures ColumnsLength(s, n, n) == |s|
    decreases |s|
  {
    if s == [] {
      ColumnsLengthEmpty(s, n, n);
    } else {
      ColumnsPartition(s[..|s| - 1], n);
      ColumnsLengthStep(s, n, n);
    }
  }

  lemma {:induction false} ColumnsLengthEmpty<T>(s: seq<T>, k: nat, n: nat)
    requires s == []
    ensures ColumnsLength(s, k, n) == 0
  {
    if k > 0 {
      ColumnsLengthEmpty(s, k - 1, n);
    }
  }

  /** Index of the first occurrence of `x` in `s`. */
  function FirstIndex<T(==)>(s: seq<T>, x: T): (i: nat)
    requires x in s
    ensures i < |s| && s[i] == x && x !in s[..i]
  {
    if s[0] == x then 0 else 1 + FirstIndex(s[1..], x)
  }

  /**
    `Array.from(new Set(s))`: each value once, in order of first occurrence. Written as the
    left-to-right fold the `Set` insertions perform: the last element is appended unless seen.
   */
  function Dedupe<T(==,!new)>(s: seq<T>): (r: seq<T>)
    ensures NoDup(r)
    ensures forall x :: x in r <==> x in s
    decreases |s|
  {
    if s == [] then []
    else
      var d := Dedupe(s[..|s| - 1]);
      assert forall x :: x in s <==> x in s[..|s| - 1] || x == s[|s| - 1] by {
        assert s == s[..|s| - 1] + [s[|s| - 1]];
      }
      if s[|s| - 1] in d then d else d + [s[|s| - 1]]
  }

  lemma FirstIndexPrefix<T>(s: seq<T>, m: nat, x: T)
    requires m <= |s| && x in s[..m]
    ensures FirstIndex(s, x) == FirstIndex(s[..m], x)
  {
    var i := FirstIndex(s[..m], x);
    var j := FirstIndex(s, x);
    assert s[..m][..i] == s[..i];
  }

  /** The deduplicated values appear in the order of their first occurrence in `s`. */
  lemma {:induction false} DedupeFirstSeenOrder<T(!new)>(s: seq<T>)
    ensures forall i, j :: 0 <= i < j < |Dedupe(s)| ==> FirstIndex(s, Dedupe(s)[i]) < FirstIndex(s, Dedupe(s)[j])
    decreases |s|
  {
    if s != [] {
      var m := |s| - 1;
      var d := Dedupe(s[..m]);
      DedupeFirstSeenOrder(s[..m]);
      forall x | x in d
        ensures FirstIndex(s, x) == FirstIndex(s[..m], x) && FirstIndex(s, x) < m
      {
        FirstIndexPrefix(s, m, x);
      }
      if s[m] !in d {
        assert s[m] !in s[..m];
        assert FirstIndex(s, s[m]) == m by {
          assert s[..m + 1][..m] == s[..m];
        }
      }
    }
  }

  /** `xs.flatMap(f)`. */
  function FlatMap<T, U(!new)>(f: T -> seq<U>, xs: seq<T>): (r: seq<U>)
    ensures forall y :: y in r <==> exists i :: 0 <= i < |xs| && y in f(xs[i])
  {
    if xs == [] then []
    else
      var rest := FlatMap(f, xs[1..]);
      assert forall i :: 1 <= i < |xs| ==> xs[i] == xs[1..][i - 1];
      assert forall y :: y in rest <==> exists i :: 1 <= i < |xs| && y in f(xs[i]) by {
        forall y | y in rest
          ensures exists i :: 1 <= i < |xs| && y in f(xs[i])
        {
          var i :| 0 <= i < |xs[1..]| && y in f(xs[1..][i]);
          assert y in f(xs[i + 1]);
        }
      }
      f(xs[0]) + rest
  }

  /**
    `flatMap` keeps order and repeats: the image of a concatenation is the concatenation of
    the images, and a one-element list maps to its element's image.
   */
  lemma {:induction false} FlatMapConcat<T, U(!new)>(f: T -> seq<U>, xs: seq<T>, ys: seq<T>)
    ensures FlatMap(f, xs + ys) == FlatMap(f, xs) + FlatMap(f, ys)
  {
    if xs == [] {
      assert xs + ys == ys;
    } else {
      calc {
        FlatMap(f, xs + ys);
        { assert (xs + ys)[0] == xs[0] && (xs + ys)[1..] == xs[1..] + ys; }
        f(xs[0]) + FlatMap(f, xs[1..] + ys);
        { FlatMapConcat(f, xs[1..], ys); }
        f(xs[0]) + (FlatMap(f, xs[1..]) + FlatMap(f, ys));
        (f(xs[0]) + FlatMap(f, xs[1..])) + FlatMap(f, ys);
        FlatMap(f, xs) + FlatMap(f, ys);
      }
    }
  }

  lemma FlatMapSingleton<T, U(!new)>(f: T -> seq<U>, x: T)
    ensures FlatMap(f, [x]) == f(x)
  {
    assert [x][1..] == [];
  }

  /** Concatenation is associative. */
  lemma ConcatAssoc<T>(x: seq<T>, y: seq<T>, z: seq<T>)
    ensures x + (y + z) == (x + y) + z
  {
  }
}

=== FILE: strings.dfy ===
/**
  Character and string helpers. Case mapping covers ASCII only: the model leaves every
  other character as it is (JavaScript's full Unicode case tables are not modelled).
  Strings are compared character by character, a proper prefix first. A Dafny `char` is a
  Unicode scalar value, so this is code-point order; it equals the UTF-16 code-unit order
  of `Array.prototype.sort` inside the Basic Multilingual Plane.
 */
module Strings {

  predicate IsLowerAscii(c: char) { 'a' <= c <= 'z' }
  predicate IsUpperAscii(c: char) { 'A' <= c <= 'Z' }
  predicate IsDigit(c: char) { '0' <= c <= '9' }

  /** `[a-z0-9]`: the characters a slug keeps. */
  predicate IsSlugAlnum(c: char) { IsLowerAscii(c) || IsDigit(c) }

  function LowerChar(c: char): (r: char)
    ensures IsUpperAscii(c) ==> IsLowerAscii(r)
    ensures !IsUpperAscii(c) ==> r == c
  {
    if IsUpperAscii(c) then (c as int + 32) as char else c
  }

  function UpperChar(c: char): (r: char)
    ensures IsLowerAscii(c) ==> IsUpperAscii(r)
    ensures !IsLowerAscii(c) ==> r == c
  {
    if IsLowerAscii(c) then (c as int - 32) as char else c
  }

  /** `s.toLowerCase()` restricted to ASCII. */
  function ToLower(s: string): (r: string)
    ensures |r| == |s|
    ensures forall i :: 0 <= i < |s| ==> r[i] == LowerChar(s[i])
  {
    seq(|s|, i requires 0 <= i < |s| => LowerChar(s[i]))
  }

  /** `s.toUpperCase()` restricted to ASCII. */
  function ToUpper(s: string): (r: string)
    ensures |r| == |s|
    ensures forall i :: 0 <= i < |s| ==> r[i] == UpperChar(s[i])
  {
    seq(|s|, i requires 0 <= i < |s| => UpperChar(s[i]))
  }

  /** Upper-casing is idempotent and leaves no lower-case ASCII letter behind. */
  lemma ToUpperIdempotent(s: string)
    ensures ToUpper(ToUpper(s)) == ToUpper(s)
    ensures forall i :: 0 <= i < |ToUpper(s)| ==> !IsLowerAscii(ToUpper(s)[i])
  {
  }

  /** `a < b` on strings. */
  predicate LexLess(a: string, b: string)
    decreases |a|
  {
    if b == [] then false
    else if a == [] then true
    else if a[0] != b[0] then a[0] < b[0]
    else LexLess(a[1..], b[1..])
  }

  lemma LexLessIrreflexive(a: string)
    ensures !LexLess(a, a)
  {
  }

  lemma LexLessAsymmetric(a: string, b: string)
    ensures LexLess(a, b) ==> !LexLess(b, a)
  {
  }

  lemma LexLessTransitive(a: string, b: string, c: string)
    ensures LexLess(a, b) && LexLess(b, c) ==> LexLess(a, c)
  {
    if a != [] && b != [] && c != [] && a[0] == b[0] && b[0] == c[0] {
      LexLessTransitive(a[1..], b[1..], c[1..]);
    }
  }

  lemma LexLessTotal(a: string, b: string)
    ensures a != b ==> LexLess(a, b) || LexLess(b, a)
  {
    if a != [] && b != [] && a[0] == b[0] {
      LexLessTotal(a[1..], b[1..]);
      assert a == [a[0]] + a[1..] && b == [b[0]] + b[1..];
    }
  }

  /** `a <= b`: not `b < a`. */
  predicate LexLeq(a: string, b: string) { !LexLess(b, a) }

  lemma LexLeqTransitive(a: string, b: string, c: string)
    ensures LexLeq(a, b) && LexLeq(b, c) ==> LexLeq(a, c)
  {
    LexLessTotal(a, b);
    LexLessTotal(b, c);
    LexLessTransitive(c, a, b);
    LexLessTransitive(b, c, a);
  }

  predicate Sorted(s: seq<string>) {
    forall i, j :: 0 <= i < j < |s| ==> LexLeq(s[i], s[j])
  }

  predicate StrictlySorted(s: seq<string>) {
    forall i, j :: 0 <= i < j < |s| ==> LexLess(s[i], s[j])
  }

  /** Inserts `x` into a sorted list before the first element not below it. */
  function Insert(x: string, s: seq<string>): (r: seq<string>)
    requires Sorted(s)
    ensures Sorted(r)
    ensures multiset(r) == multiset(s) + multiset{x}
  {
    if s == [] then [x]
    else if !LexLess(s[0], x) then
      assert forall j :: 0 <= j < |s| ==> LexLeq(x, s[j]) by {
        forall j | 0 <= j < |s| ensures LexLeq(x, s[j]) {
          LexLeqTransitive(x, s[0], s[j]);
        }
      }
      [x] + s
    else
      var rest := Insert(x, s[1..]);
      assert s == [s[0]] + s[1..];
      assert forall y :: y in rest ==> LexLeq(s[0], y) by {
        forall y | y in rest ensures LexLeq(s[0], y) {
          assert y in multiset(rest);
          if y == x {
            LexLessAsymmetric(s[0], x);
          } else {
            assert y in multiset(s[1..]);
          }
        }
      }
      [s[0]] + rest
  }

  /** The default `Array.prototype.sort` on strings, as an insertion sort. */
  function Sort(s: seq<string>): (r: seq<string>)
    ensures Sorted(r)
    ensures multiset(r) == multiset(s)
  {
    if s == [] then []
    else
      assert s == [s[0]] + s[1..];
      Insert(s[0], Sort(s[1..]))
  }

  /** Sorting a list without duplicates gives a strictly ascending list of the same values. */
  lemma {:induction false} SortDistinct(s: seq<string>)
    requires forall i, j :: 0 <= i < j < |s| ==> s[i] != s[j]
    ensures StrictlySorted(Sort(s))
    ensures forall x :: x in Sort(s) <==> x in s
  {
    var r := Sort(s);
    assert forall x :: x in r <==> x in s by {
      forall x ensures x in r <==> x in s {
        assert x in r <==> x in multiset(r);
        assert x in s <==> x in multiset(s);
      }
    }
    DistinctMultiset(s);
    forall i, j | 0 <= i < j < |r| ensures LexLess(r[i], r[j]) {
      if r[i] == r[j] {
        TwoOccurrences(r, i, j);
        assert false;
      }
      LexLessTotal(r[i], r[j]);
    }
  }

  lemma DistinctMultiset(s: seq<string>)
    requires forall i, j :: 0 <= i < j < |s| ==> s[i] != s[j]
    ensures forall x :: multiset(s)[x] <= 1
  {
    if s != [] {
      DistinctMultiset(s[1..]);
      assert s == [s[0]] + s[1..];
      assert s[0] !in s[1..];
    }
  }

  lemma TwoOccurrences(s: seq<string>, i: nat, j: nat)
    requires i < j < |s| && s[i] == s[j]
    ensures multiset(s)[s[i]] >= 2
  {
    assert s == s[..i] + [s[i]] + s[i + 1..j] + [s[j]] + s[j + 1..];
  }
}

=== FILE: webhook.dfy ===
/**
  What the two webhook routes share: the request body, the revalidation actions they perform
  and record, and the response they answer with.
 */
module Webhook {
  import Cache

  /** `await request.json()`: a parsed payload, or a body that fails to parse. */
  datatype Body = Json(json: string) | Unparseable(message: string)

  /**
    One side effect of a handler, in the order it happened (`revalidateTag`,
    `revalidatePath`, `warmCache`). The routes report these in their `actions` list as
    strings whose wording differs between the routes; the model keeps the effect only.
   */
  datatype Action =
    | RevalidatedGlobalTag(tag: string)
    | RevalidatedCollection(collection: string, tag: string)
    | RevalidatedPath(path: string)
    | WarmedPath(path: string)
    | WarmedListPath(path: string)
    | RevalidatedAndWarmed(path: string)

  /**
    The answer: 200 with the action list, 400 when the adapter is not available, or 500 with
    the message of whatever was thrown.
   */
  datatype Response = Processed(actions: seq<Action>) | AdapterUnavailable | Failed(error: string)

  function Status(r: Response): (code: int)
    ensures code in {200, 400, 500}
    ensures code == 200 <==> r.Processed?
  {
    match r
    case Processed(_) => 200
    case AdapterUnavailable => 400
    case Failed(_) => 500
  }

  /** Whether an action revalidates the tag `t`. */
  predicate RevalidatesTag(a: Action, t: string) {
    a == RevalidatedGlobalTag(t) || (a.RevalidatedCollection? && a.tag == t)
  }

  /** The tags an action list revalidates, in order. */
  function RevalidatedTags(actions: seq<Action>): (r: seq<string>)
    ensures |r| <= |actions|
    ensures forall t :: t in r <==> exists i :: 0 <= i < |actions| && RevalidatesTag(actions[i], t)
  {
    if actions == [] then []
    else
      var rest := RevalidatedTags(actions[1..]);
      assert forall i :: 1 <= i < |actions| ==> actions[i] == actions[1..][i - 1];
      match actions[0]
      case RevalidatedGlobalTag(t) => [t] + rest
      case RevalidatedCollection(_, t) => [t] + rest
      case _ => rest
  }

  /**
    The effect of an action list on the data cache: every entry carrying a revalidated tag is
    dropped. Path revalidations and warming touch the page cache, which is not modelled.
   */
  function ApplyRevalidations(store: Cache.Store, actions: seq<Action>): (r: Cache.Store)
    ensures forall k :: k in r <==> k in store && forall i :: 0 <= i < |actions| ==> !HitsEntry(actions[i], store[k])
    ensures forall k :: k in r ==> r[k] == store[k]
    decreases |actions|
  {
    if actions == [] then store
    else
      var first := match actions[0]
        case RevalidatedGlobalTag(t) => Cache.RevalidateTag(store, t)
        case RevalidatedCollection(_, t) => Cache.RevalidateTag(store, t)
        case _ => store;
      var r := ApplyRevalidations(first, actions[1..]);
      assert forall i :: 1 <= i < |actions| ==> actions[i] == actions[1..][i - 1];
      r
  }

  /** Whether an action drops a stored entry. */
  predicate HitsEntry(a: Action, entry: Cache.Stored) {
    exists t :: t in entry.tags && RevalidatesTag(a, t)
  }
}

=== FILE: webhook_contentful.dfy ===
/** The `POST` handler of `app/api/webhook/contentful/route.ts`. */
module ContentfulWebhook {
  import opened Wrappers
  import opened Environment
  import Cache
  import CmsAdapter
  import opened Webhook
  import NotionWebhook

  /** The page of one record: always `/<collection>/<slug>`, with no special case for `cases`. */
  function DetailPath(collection: string, slug: string): (p: string)
    ensures |p| == |collection| + |slug| + 2
    ensures p[0] == '/' && p[1..|collection| + 1] == collection && p[|collection| + 1] == '/'
    ensures p[|collection| + 2..] == slug
  {
    "/" + collection + "/" + slug
  }

  /**
    The actions taken once the adapter is available: always the global tag; for a truthy
    collection its tag; for a truthy slug as well, one combined revalidate-and-warm of the
    record's page. There is no list-page warm.
   */
  function Actions(adapter: CmsAdapter.Adapter, target: CmsAdapter.Target, globalTag: string): (actions: seq<Action>)
    ensures 1 <= |actions| <= 3
    ensures actions[0] == RevalidatedGlobalTag(globalTag)
    ensures |actions| == 1 <==> !Truthy(target.collection)
    ensures |actions| == 3 <==> Truthy(target.collection) && Truthy(target.slug)
    ensures forall i :: 0 <= i < |actions| ==> !actions[i].WarmedListPath?
  {
    var global := [RevalidatedGlobalTag(globalTag)];
    if !Truthy(target.collection) then global
    else
      var c := target.collection.value;
      var collectionStep := [RevalidatedCollection(c, CmsAdapter.TagFor(adapter, c))];
      if Truthy(target.slug) then global + collectionStep + [RevalidatedAndWarmed(DetailPath(c, target.slug.value))]
      else global + collectionStep
  }

  /**
    For a truthy collection the second action revalidates the tag the cache attaches to that
    collection, and a truthy slug ends the list with its page.
   */
  lemma CollectionActions(adapter: CmsAdapter.Adapter, target: CmsAdapter.Target, globalTag: string)
    requires Truthy(target.collection)
    ensures var actions := Actions(adapter, target, globalTag);
      var c := target.collection.value;
      && actions[1] == RevalidatedCollection(c, CmsAdapter.CollectionTag(c))
      && actions[1].tag == Cache.CacheTags(globalTag, adapter, c)[1]
      && (Truthy(target.slug) ==> actions[2] == RevalidatedAndWarmed(DetailPath(c, target.slug.value)))
  {
    var c := target.collection.value;
  }

  /**
    `POST`: parse (500 on failure), then the registry's Contentful adapter must be available
    (400 if not), then the actions run (200).
   */
  function Post(registry: CmsAdapter.Adapters, env: Env, body: Body, globalTag: string): (r: Response)
    ensures body.Unparseable? ==> r == Failed(body.message)
    ensures body.Json? && !CmsAdapter.IsAvailable(registry.contentful, env) ==> r == AdapterUnavailable
    ensures Status(r) == 200 <==> body.Json? && CmsAdapter.IsAvailable(registry.contentful, env)
  {
    match body
    case Unparseable(message) => Failed(message)
    case Json(json) =>
      var adapter := registry.contentful;
      if !CmsAdapter.IsAvailable(adapter, env) then AdapterUnavailable
      else Processed(Actions(adapter, CmsAdapter.WebhookToCollectionAndSlug(adapter, CmsAdapter.Payload(json)), globalTag))
  }

  /**
    With the registry's Contentful adapter, an accepted webhook only revalidates the global
    tag: the adapter extracts no collection from any payload.
   */
  lemma PostActionsForContentful(bootEnv: Env, env: Env, json: string, globalTag: string)
    requires IsSet(env, "CONTENTFUL_SPACE_ID") && IsSet(env, "CONTENTFUL_ACCESS_TOKEN")
    ensures Post(CmsAdapter.NewAdapters(bootEnv), env, Json(json), globalTag) == Processed([RevalidatedGlobalTag(globalTag)])
  {
    var adapter := CmsAdapter.NewAdapters(bootEnv).contentful;
    assert CmsAdapter.WebhookToCollectionAndSlug(adapter, CmsAdapter.Payload(json)).collection.None?;
  }

  /**
    The two handlers agree on the global tag and the collection tag, and on the page of a
    record outside `cases`; for `cases` the Notion handler targets `/work/<slug>` while this
    one targets `/cases/<slug>`.
   */
  lemma HandlersCompared(target: CmsAdapter.Target, globalTag: string)
    requires Truthy(target.collection) && Truthy(target.slug)
    ensures var n := NotionWebhook.Actions(CmsAdapter.NotionAdapter(true), target, globalTag);
      var c := Actions(CmsAdapter.ContentfulAdapter, target, globalTag);
      && n[..2] == c[..2]
      && (target.collection.value != "cases" ==> n[2].path == c[2].path)
      && (target.collection.value == "cases" ==> n[2].path != c[2].path)
  {
    var col, slug := target.collection.value, target.slug.value;
    NotionWebhook.CollectionActions(CmsAdapter.NotionAdapter(true), target, globalTag);
    CollectionActions(CmsAdapter.ContentfulAdapter, target, globalTag);
    if col == "cases" {
      var p := NotionWebhook.DetailPath(col, slug);
      var q := DetailPath(col, slug);
      assert p[1] == 'w' && q[1] == 'c';
    }
  }
}

=== FILE: webhook_notion.dfy ===
/** The `POST` handler of `app/api/webhook/notion/route.ts`. */
module NotionWebhook {
  import opened Wrappers
  import opened Environment
  import Cache
  import CmsAdapter
  import opened Webhook

  /** The page of one record: `/work/<slug>` for cases, `/<collection>/<slug>` otherwise. */
  function DetailPath(collection: string, slug: string): (p: string)
    ensures collection == "cases" ==> p == "/work/" + slug
    ensures collection != "cases" ==> p == "/" + collection + "/" + slug
  {
    if collection == "cases" then "/work/" + slug else "/" + collection + "/" + slug
  }

  /** The list page: `/work` for cases, `/<collection>` otherwise. */
  function ListPath(collection: string): (p: string)
    ensures collection == "cases" ==> p == "/work"
    ensures collection != "cases" ==> p == "/" + collection
  {
    if collection == "cases" then "/work" else "/" + collection
  }

  /**
    The actions taken once the adapter is available, for the `{ collection, slug }` it
    extracted: always the global tag; for a truthy collection its tag, then (for a truthy
    slug) the record's page revalidated and warmed, then the list page warmed.
   */
  function Actions(adapter: CmsAdapter.Adapter, target: CmsAdapter.Target, globalTag: string): (actions: seq<Action>)
    ensures |actions| in {1, 3, 5}
    ensures actions[0] == RevalidatedGlobalTag(globalTag)
    ensures |actions| == 1 <==> !Truthy(target.collection)
    ensures |actions| == 5 <==> Truthy(target.collection) && Truthy(target.slug)
  {
    var global := [RevalidatedGlobalTag(globalTag)];
    if !Truthy(target.collection) then global
    else
      var c := target.collection.value;
      var collectionStep := [RevalidatedCollection(c, CmsAdapter.TagFor(adapter, c))];
      var slugSteps :=
        if Truthy(target.slug) then [RevalidatedPath(DetailPath(c, target.slug.value)), WarmedPath(DetailPath(c, target.slug.value))]
        else [];
      global + collectionStep + slugSteps + [WarmedListPath(ListPath(c))]
  }

  /**
    For a truthy collection the second action revalidates exactly the tag the cache attaches
    to that collection's entries, the last warms its list page, and a record page is warmed
    right after it is revalidated.
   */
  lemma CollectionActions(adapter: CmsAdapter.Adapter, target: CmsAdapter.Target, globalTag: string)
    requires Truthy(target.collection)
    ensures var actions := Actions(adapter, target, globalTag);
      var c := target.collection.value;
      && actions[1] == RevalidatedCollection(c, CmsAdapter.CollectionTag(c))
      && actions[1].tag == Cache.CacheTags(globalTag, adapter, c)[1]
      && actions[|actions| - 1] == WarmedListPath(ListPath(c))
      && (Truthy(target.slug) ==>
            actions[2] == RevalidatedPath(DetailPath(c, target.slug.value))
            && actions[3] == WarmedPath(actions[2].path))
  {
    var c := target.collection.value;
  }

  /**
    `POST`: the body is parsed first (a failure answers 500), then the registry's Notion
    adapter is asked whether it is available (400 if not), then the actions run (200).
   */
  function Post(registry: CmsAdapter.Adapters, env: Env, body: Body, globalTag: string): (r: Response)
    ensures body.Unparseable? ==> r == Failed(body.message)
    ensures body.Json? && !CmsAdapter.IsAvailable(registry.notion, env) ==> r == AdapterUnavailable
    ensures Status(r) == 200 <==> body.Json? && CmsAdapter.IsAvailable(registry.notion, env)
  {
    match body
    case Unparseable(message) => Failed(message)
    case Json(json) =>
      var adapter := registry.notion;
      if !CmsAdapter.IsAvailable(adapter, env) then AdapterUnavailable
      else Processed(Actions(adapter, CmsAdapter.WebhookToCollectionAndSlug(adapter, CmsAdapter.Payload(json)), globalTag))
  }

  /**
    With the registry's Notion adapter, whatever the payload says, an accepted webhook does
    exactly three things: the global tag, the `cases` tag, and a warm of `/work`. No record
    page is ever revalidated, since the adapter never extracts a slug.
   */
  lemma PostActionsForNotion(bootEnv: Env, env: Env, json: string, globalTag: string)
    requires CmsAdapter.NewNotionAdapter(bootEnv).isConfigured
    ensures Post(CmsAdapter.NewAdapters(bootEnv), env, Json(json), globalTag)
         == Processed([RevalidatedGlobalTag(globalTag), RevalidatedCollection("cases", "cms:cases"), WarmedListPath("/work")])
  {
    var adapter := CmsAdapter.NewAdapters(bootEnv).notion;
    var target := CmsAdapter.WebhookToCollectionAndSlug(adapter, CmsAdapter.Payload(json));
    assert target == CmsAdapter.Target(Some("cases"), None);
    CollectionActions(adapter, target, globalTag);
    assert CmsAdapter.IsAvailable(adapter, env);
    assert CmsAdapter.CollectionTag("cases") == "cms:cases";
    var actions := Actions(adapter, target, globalTag);
    assert |actions| == 3;
    assert actions == [RevalidatedGlobalTag(globalTag), RevalidatedCollection("cases", "cms:cases"), WarmedListPath("/work")];
  }

  /**
    An accepted webhook empties the data cache of everything `getCachedData` stored under
    the same global tag: each such entry carries that tag, which the first action drops.
   */
  lemma PostDropsCachedEntries(registry: CmsAdapter.Adapters, env: Env, body: Body, globalTag: string, store: Cache.Store)
    requires Post(registry, env, body, globalTag).Processed?
    requires forall k :: k in store ==> globalTag in store[k].tags
    ensures ApplyRevalidations(store, Post(registry, env, body, globalTag).actions) == map[]
  {
    var actions := Post(registry, env, body, globalTag).actions;
    var r := ApplyRevalidations(store, actions);
    forall k | k in store ensures k !in r {
      assert HitsEntry(actions[0], store[k]);
    }
    assert r.Keys == {};
  }
}

=== FILE: wrappers.dfy ===
/** Optional values: the model's stand-in for JavaScript's `undefined` and `null`. */
module Wrappers {

  datatype Option<T> = None | Some(value: T) {

    /** The wrapped value, or `default` when there is none (JavaScript's `x ?? default`). */
    function GetOr(default: T): T {
      match this
      case Some(v) => v
      case None => default
    }
  }

  /** JavaScript truthiness of an optional string: present and non-empty. */
  predicate Truthy(s: Option<string>) {
    s.Some? && s.value != ""
  }

  /** `s || ""` for an optional string. */
  function OrEmpty(s: Option<string>): (r: string)
    ensures Truthy(s) ==> r == s.value
    ensures !Truthy(s) ==> r == ""
  {
    s.GetOr("")
  }
}
